=== FILE: README.md ===
# Universal Search Suggestions, modelled in Dafny

Universal Search Suggestions is a Command Palette extension. As the user types, its fallback handler
asks a remote suggestion API for completions. Six providers are supported: Google, Bing, Yahoo,
DuckDuckGo, Brave and Ecosia. Each completion is listed as an item that opens the results page of
the selected search engine, and a settings page toggles and cycles the configuration. This project
models the sequential logic of the extension and proves properties of that model:

- `SuggestionService` (`suggestion_service.dfy`) covers three things:
  - the request URL of each provider;
  - the parser dispatch;
  - the six response decoders, Google's JSONP envelope and tag stripping included.

  A decoder is a partial function. It returns the suggestions or the exception the C# code throws
  (`Result`). A JSON document is the value tree of section 3 of RFC 8259 (`json.dfy`), read through
  the `JsonElement` accessors the parsers call.
- `SearchEngineUrls.Resolve` (`search_engine_urls.dfy`) builds the URL an item opens. It uses
  `Uri.EscapeDataString`, which is modelled in `uri_escape.dfy` as the percent-encoding of section
  2.1 of RFC 3986 over UTF-8, leaving the unreserved set of section 2.3 as it is. Unescaping gives the
  query back, which is proved.
- `SuggestionsFallbackHandler` (`fallback_handler.dfy`) has two parts:
  - `UpdateQuery` is a transition over the state (last query, items, refreshes, generation);
  - `UpdateAsync` turns the fetch outcome into the item list. The network is given as a function
    from request URL to response.
- The settings record, its defaults and its two enumerations are in `settings.dfy`.
- The settings page (`settings_page.dfy`) covers the toggle, cycle and edit commands and the five
  rows of `GetItems`.

The remaining files model the .NET library calls these parts rely on:

- `outcomes.dfy`: `Option`, `Result` and the exception kinds;
- `text.dfy`: ordinal `IndexOf`, `LastIndexOf`, `Substring` and `Replace`, `IsNullOrWhiteSpace`, and
  the decimal `ToString` of an integer;
- `sequences.dfy`: `Array.IndexOf` and `Enumerable.Distinct`.

A C# enum variable can hold any integer. So `SearchEngine` and `SuggestionProvider` carry one more
constructor each (`OtherEngine(raw)`, `OtherProvider(raw)`) for values outside the declared members.
The subset types `Config.Engine` and `Config.Provider` admit `raw` only when it is a 32-bit integer
outside the declared range, so each value a setting can hold has exactly one representation.
A nullable C# string is `Option<string>`.

## Model

All source paths are under `UniversalSearchSuggestions/`.

| member | source | states |
|---|---|---|
| SuggestionService.RequestUrl | UniversalSearchSuggestions/Services/SuggestionService.cs:18-27 | An undeclared provider fails with `NotSupportedException`. Every declared provider's URL ends with the escaped query. |
| SuggestionService.RequestUrlTemplate | UniversalSearchSuggestions/Services/SuggestionService.cs:20-25 | A provider's URL is its URL for the empty query, followed by the escaped query. |
| SuggestionService.EndpointParameter | UniversalSearchSuggestions/Services/SuggestionService.cs:20-25 | Yahoo passes the query as `&command=`. Every other provider passes it as `q=`. |
| SuggestionService.RequestUrlConfinesQuery | UniversalSearchSuggestions/Services/SuggestionService.cs:20-25 | After the template, the URL holds only unreserved characters and `%`. The query cannot add parameters or fragments. |
| SuggestionService.RequestUrlInjective | UniversalSearchSuggestions/Services/SuggestionService.cs:20-25 | Different queries produce different request URLs for the same provider. |
| SuggestionService.ParseDocument | UniversalSearchSuggestions/Services/SuggestionService.cs:63 | Parsing fails with a `JsonException` exactly when the text is not a JSON document. |
| SuggestionService.GoogleEnvelope | UniversalSearchSuggestions/Services/SuggestionService.cs:47-52 | The result is "no suggestions" exactly when `window.google.ac.h(` or `)` is absent. It is an `ArgumentOutOfRangeException` exactly when the last `)` comes before the end of the first prefix. Otherwise it is the text strictly between the end of the first prefix and the last `)`. |
| SuggestionService.RemoveTags | UniversalSearchSuggestions/Services/SuggestionService.cs:114 | Removing the tags never lengthens the text. |
| SuggestionService.RemoveTagsIdentity | UniversalSearchSuggestions/Services/SuggestionService.cs:114 | The text is unchanged exactly when it contains neither `<b>` nor `</b>`. |
| SuggestionService.RemoveTagsCanFormTag | UniversalSearchSuggestions/Services/SuggestionService.cs:114 | The output can still hold a tag: `<<b>b>` becomes `<b>`. |
| SuggestionService.RemoveBoldTags | UniversalSearchSuggestions/Services/SuggestionService.cs:114 | `<b>cat</b>s` and `cats` both become `cats`. |
| SuggestionService.GoogleSuggestion | UniversalSearchSuggestions/Services/SuggestionService.cs:55 | A row yields a suggestion exactly when its first element is a JSON string. The suggestion is that string, tag-stripped and then HTML-decoded. A null text fails. |
| SuggestionService.ParseGoogle | UniversalSearchSuggestions/Services/SuggestionService.cs:45-57 | A missing marker gives the empty list, and a misplaced `)` gives an error. Once the envelope is present, a body that is not JSON is a `JsonException`, and the result is a list exactly when the document's first element is an array whose every row starts with a string. Any list returned has no repeats and no null. |
| SuggestionService.GoogleOutput | UniversalSearchSuggestions/Services/SuggestionService.cs:53-56 | The output is the decoded row texts without repeats, each at its first occurrence, in first-occurrence order. |
| SuggestionService.GoogleMergesMarkupVariants | UniversalSearchSuggestions/Services/SuggestionService.cs:54-56 | Two rows that differ only in bold tags produce one suggestion. |
| SuggestionService.SuggestionArray | UniversalSearchSuggestions/Services/SuggestionService.cs:64-110 | Each provider's array is the result of walking its path of accessors: Bing `suggestionGroups`, `[0]`, `searchSuggestions`; Yahoo `gossip`, `results`; DuckDuckGo the root; Brave `[1]`; Ecosia `suggestions`. The first accessor that throws decides the failure, and the end of the path must be an array. |
| SuggestionService.SuggestionText | UniversalSearchSuggestions/Services/SuggestionService.cs:67-110 | Each element yields the string at its path: Bing `displayText`, Yahoo `key`, DuckDuckGo `phrase`, Ecosia the element itself. Brave reads `name` when the element has it and `q` otherwise, and an element that is not an object is an `InvalidOperationException`. |
| SuggestionService.ParsePath | UniversalSearchSuggestions/Services/SuggestionService.cs:61-111 | The Bing, Yahoo, DuckDuckGo, Brave and Ecosia decoders succeed exactly when the document parses, the path reaches an array, and every element yields a string or null. They then return one entry per element, in order, without de-duplication. |
| SuggestionService.BraveReadsIndexOne | UniversalSearchSuggestions/Services/SuggestionService.cs:96-98 | Brave enumerates the second element of the root array. A shorter array is an `IndexOutOfRange` failure, and a non-array is an `InvalidOperation` failure. |
| SuggestionService.BravePrefersName | UniversalSearchSuggestions/Services/SuggestionService.cs:100 | Brave takes `name` whenever that property exists, even when it is null and `q` is present. It takes `q` only when `name` is absent. |
| SuggestionService.PathDecodersKeepEverything | UniversalSearchSuggestions/Services/SuggestionService.cs:110 | Ecosia keeps repeated suggestions and passes a JSON null through as a null string. |
| SuggestionService.Decode | UniversalSearchSuggestions/Services/SuggestionService.cs:30-39 | An undeclared provider decodes to the empty list. |
| SuggestionService.InvalidJsonIsAnError | UniversalSearchSuggestions/Services/SuggestionService.cs:53-110 | No decoder is total: a body that is not JSON is a `JsonException` for every provider, Google included once its envelope is present. |
| SuggestionService.WrongShapeIsAnError | UniversalSearchSuggestions/Services/SuggestionService.cs:54-110 | Example: the empty object `{}` gives, for each provider, the exception its first accessor throws, never an empty list. |
| SuggestionService.GoogleWrongShapeIsAnError | UniversalSearchSuggestions/Services/SuggestionService.cs:54-57 | For every Google document: a root without a first element, a first element that is not an array, or a row that does not start with a string is an error, never an empty list. |
| SuggestionService.Receive | UniversalSearchSuggestions/Services/SuggestionService.cs:29 | Only a body is a success. An HTTP error becomes an `HttpRequestException`, and a cancellation or a timeout becomes an `OperationCanceledException`. |
| SuggestionService.Fetch | UniversalSearchSuggestions/Services/SuggestionService.cs:16-40 | An undeclared provider fails before any request is made. A failed request propagates its exception. A body goes to the provider's decoder. |
| SearchEngineUrls.Resolve | UniversalSearchSuggestions/Services/SearchEngineUrls.cs:11-24 | Every branch ends with the escaped query. |
| SearchEngineUrls.ResolveIsPrefixPlusQuery | UniversalSearchSuggestions/Services/SearchEngineUrls.cs:13-23 | The result is a prefix that depends only on the settings, followed by the escaped query. |
| SearchEngineUrls.NamedEngineParameter | UniversalSearchSuggestions/Services/SearchEngineUrls.cs:16-21 | Each of the six named engines uses a fixed `https://` page. Yahoo passes the query as `?p=`, and the others as `q=`. |
| SearchEngineUrls.BlankCustomEngine | UniversalSearchSuggestions/Services/SearchEngineUrls.cs:22 | `Custom` with a null or blank base URL gives the bare escaped query. |
| SearchEngineUrls.CustomEngineVerbatim | UniversalSearchSuggestions/Services/SearchEngineUrls.cs:22 | `Custom` with a non-blank base gives that base verbatim, followed directly by the escaped query. |
| SearchEngineUrls.UndeclaredEngine | UniversalSearchSuggestions/Services/SearchEngineUrls.cs:23 | An engine value outside the enum gives the bare escaped query. |
| SearchEngineUrls.ResolveIgnoresOtherSettings | UniversalSearchSuggestions/Services/SearchEngineUrls.cs:11-24 | The result depends only on the engine, the custom URL (for `Custom`) and the query. The provider and the flags do not affect it. |
| SearchEngineUrls.ResolveInjective | UniversalSearchSuggestions/Services/SearchEngineUrls.cs:11-24 | Under fixed settings, different queries open different URLs. |
| UriEscape.EscapeDataString | UniversalSearchSuggestions/Services/SearchEngineUrls.cs:13 | The escaped text is at least as long as the input and holds only unreserved characters and `%`. |
| UriEscape.EscapeIdentity | UniversalSearchSuggestions/Services/SearchEngineUrls.cs:13 | Escaping leaves a text unchanged exactly when all its characters are unreserved. |
| UriEscape.EscapeRoundTrip | UniversalSearchSuggestions/Services/SearchEngineUrls.cs:13 | Percent-decoding and then UTF-8 decoding the escaped text gives the original back. |
| UriEscape.EscapeInjective | UniversalSearchSuggestions/Services/SearchEngineUrls.cs:13 | Different texts escape differently. |
| Fallback.CreateSearchItem | UniversalSearchSuggestions/Fallback/SuggestionsFallbackHandler.cs:68-72 | A null text throws `ArgumentNullException`. Otherwise the item is titled with the text, and its URL ends with the escaped text. |
| Fallback.SearchItemOpensItsTitle | UniversalSearchSuggestions/Fallback/SuggestionsFallbackHandler.cs:68 | Unescaping the item's URL after the engine prefix gives the title back. |
| Fallback.FirstNull | UniversalSearchSuggestions/Fallback/SuggestionsFallbackHandler.cs:43-46 | Every suggestion before the returned position is non-null, and the one at that position, if any, is null. |
| Fallback.AddItems | UniversalSearchSuggestions/Fallback/SuggestionsFallbackHandler.cs:43-46 | The loop adds one search item per suggestion, in order. It stops with `ArgumentNullException` exactly at the first null, and keeps the items added before it. |
| Fallback.Listed | UniversalSearchSuggestions/Fallback/SuggestionsFallbackHandler.cs:42-61 | Every listed search item opens `Resolve` of its own title. An error item can only be last. |
| Fallback.UpdateAsync | UniversalSearchSuggestions/Fallback/SuggestionsFallbackHandler.cs:35-63 | A blank query leaves the list empty and refreshes twice. Any other query refreshes once. |
| Fallback.BlankQueryNoFetch | UniversalSearchSuggestions/Fallback/SuggestionsFallbackHandler.cs:39-40 | A blank query gives an empty list whatever the network would answer, so it performs no fetch. |
| Fallback.SuccessOneItemPerSuggestion | UniversalSearchSuggestions/Fallback/SuggestionsFallbackHandler.cs:43-46 | A non-empty list of strings gives one item per suggestion, in order. Each item is titled with its suggestion and opens `Resolve(settings, suggestion)`. |
| Fallback.QueryCardOnlyWhenEmpty | UniversalSearchSuggestions/Fallback/SuggestionsFallbackHandler.cs:48-51 | An empty fetch result lists the query card exactly when `AlwaysShowQueryCard` holds. |
| Fallback.FailureOutcome | UniversalSearchSuggestions/Fallback/SuggestionsFallbackHandler.cs:53-61 | A cancellation leaves the list empty. Any other failure leaves exactly one "Error fetching suggestions" item, with the exception's message as subtitle. |
| Fallback.UndeclaredProviderIsReported | UniversalSearchSuggestions/Fallback/SuggestionsFallbackHandler.cs:54-61 | An undeclared provider shows the `NotSupportedException` error item. |
| Fallback.NullSuggestionKeepsPrefix | UniversalSearchSuggestions/Fallback/SuggestionsFallbackHandler.cs:43-61 | A null suggestion at position k leaves the k items before it, followed by one error item and no query card. |
| Fallback.UpdateQuery | UniversalSearchSuggestions/Fallback/SuggestionsFallbackHandler.cs:26-33 | An ordinally equal query changes nothing. Any other query is remembered, increments the generation by one, and signals a refresh. |
| Fallback.InitialIsQuiet | UniversalSearchSuggestions/Fallback/SuggestionsFallbackHandler.cs:18 | `_lastQuery` starts as `""`, so a first empty query is a no-op. |
| Fallback.UpdateQueryKeepsConsistent | UniversalSearchSuggestions/Fallback/SuggestionsFallbackHandler.cs:26-33 | The list always shows what a run for the remembered query produces. |
| Fallback.StepsSummary | UniversalSearchSuggestions/Fallback/SuggestionsFallbackHandler.cs:26-33 | Over any sequence of queries, the generation grows by the number of queries that differ from their predecessor, and each such query refreshes at least once. The handler ends up remembering the last query, with that query's list. |
| Config.EngineFromValue | UniversalSearchSuggestions/Settings.cs:18-27 | An integer names a declared engine exactly when it lies in 0..6. |
| Config.ProviderFromValue | UniversalSearchSuggestions/Settings.cs:29-37 | An integer names a declared provider exactly when it lies in 0..5. |
| Config.EngineValueRoundTrip | UniversalSearchSuggestions/Settings.cs:18-27 | Engine values and integers convert into each other without loss. |
| Config.ProviderValueRoundTrip | UniversalSearchSuggestions/Settings.cs:29-37 | Provider values and integers convert into each other without loss. |
| Config.EnumerationsAlign | UniversalSearchSuggestions/Settings.cs:18-37 | `SearchEngine` has seven distinctly named members ending in `Custom`. `SuggestionProvider` has the first six names, in the same order. |
| Config.DeclaredValues | UniversalSearchSuggestions/Settings.cs:18-37 | The declared members carry the values 0, 1, 2, … in declaration order. |
| Config.DefaultSettings | UniversalSearchSuggestions/Settings.cs:9-16 | Google is both the engine and the provider. The custom URL is `""` and counts as blank. The query card is on and the markdown preview is off. |
| SettingsPage.CycleIn | UniversalSearchSuggestions/Pages/SettingsPage.cs:86-88 | The next value is always a member, and a non-member moves to the first member. |
| SettingsPage.CycleStep | UniversalSearchSuggestions/Pages/SettingsPage.cs:86-88 | Without repeats, cycling moves to the next position, and from the last position back to the first. |
| SettingsPage.CycleAdvance | UniversalSearchSuggestions/Pages/SettingsPage.cs:86-88 | Up to the last member, k cycles advance k positions. |
| SettingsPage.CycleWrap | UniversalSearchSuggestions/Pages/SettingsPage.cs:86-88 | Past the last member, cycling continues from the first. |
| SettingsPage.CycleFullTurn | UniversalSearchSuggestions/Pages/SettingsPage.cs:86-88 | As many cycles as there are members restore the value. |
| SettingsPage.MembersDistinct | UniversalSearchSuggestions/Settings.cs:18-37 | Neither enumeration repeats a member. |
| SettingsPage.Set | UniversalSearchSuggestions/Pages/SettingsPage.cs:68 | Assigning one flag leaves every other setting unchanged. |
| SettingsPage.Invoke | UniversalSearchSuggestions/Pages/SettingsPage.cs:66-106 | Toggle negates its flag and nothing else. Cycle sets the field to the member after the current one in declaration order (the first one after the last, or for an undeclared value) and changes only its own field. Each toast names the new value. The edit command changes nothing. |
| SettingsPage.ToggleTwice | UniversalSearchSuggestions/Pages/SettingsPage.cs:68 | Two toggles are the identity. |
| SettingsPage.EngineCycle | UniversalSearchSuggestions/Pages/SettingsPage.cs:86-88 | Engines advance in declaration order. `Custom` and any undeclared value go to Google. |
| SettingsPage.EngineFullTurn | UniversalSearchSuggestions/Pages/SettingsPage.cs:86-88 | Seven cycles restore a declared engine. |
| SettingsPage.ProviderCycle | UniversalSearchSuggestions/Pages/SettingsPage.cs:86-88 | Providers advance in declaration order. Ecosia and any undeclared value go to Google. |
| SettingsPage.ProviderFullTurn | UniversalSearchSuggestions/Pages/SettingsPage.cs:86-88 | Six cycles restore a declared provider. |
| SettingsPage.Rows | UniversalSearchSuggestions/Pages/SettingsPage.cs:25-50 | There are five rows, and each carries the command of its setting. |
| SettingsPage.RowsShowSettings | UniversalSearchSuggestions/Pages/SettingsPage.cs:30-48 | A flag row reads "Enabled" exactly when its flag is set. The URL row reads "(not set)" for a null or blank URL, and otherwise shows the URL. |
| SettingsPage.EngineNameInjective | UniversalSearchSuggestions/Pages/SettingsPage.cs:39 | Different engines, undeclared ones included, render differently. |
| SettingsPage.ProviderNameInjective | UniversalSearchSuggestions/Pages/SettingsPage.cs:43 | Different providers, undeclared ones included, render differently. |
| SettingsPage.ToggleRowFlips | UniversalSearchSuggestions/Pages/SettingsPage.cs:27-35 | A flag row's command flips that row's subtitle and leaves the other rows unchanged. |
| SettingsPage.CycleMoves | UniversalSearchSuggestions/Pages/SettingsPage.cs:86-88 | In an enumeration with more than one member and no repeats, cycling always changes the value. |
| SettingsPage.EngineRowTitleInjective | UniversalSearchSuggestions/Pages/SettingsPage.cs:39 | The engine row's title differs for different engines. |
| SettingsPage.ProviderRowTitleInjective | UniversalSearchSuggestions/Pages/SettingsPage.cs:43 | The provider row's title differs for different providers. |
| SettingsPage.EngineRowChanges | UniversalSearchSuggestions/Pages/SettingsPage.cs:37-40 | The engine row's command changes that row's title and no other row. |
| SettingsPage.ProviderRowChanges | UniversalSearchSuggestions/Pages/SettingsPage.cs:41-44 | The provider row's command changes that row's title and no other row. |
| SettingsPage.GetProperty | UniversalSearchSuggestions/Pages/SettingsPage.cs:63 | A property found by reflection has exactly the requested name. |
| SettingsPage.GetPropertyFindsEveryName | UniversalSearchSuggestions/Pages/SettingsPage.cs:63 | Every property of `Settings` is found under its own name. A lookup returns null exactly for a name that no property has. |
| SettingsPage.SetValue | UniversalSearchSuggestions/Pages/SettingsPage.cs:63 | `SetValue` throws `ArgumentException` exactly when the value's type differs from the property's. Otherwise the value is stored in that property, every other property is kept, and the custom URL never changes. |
| SettingsPage.SetProperty | UniversalSearchSuggestions/Pages/SettingsPage.cs:63 | The call throws `NullReferenceException` exactly when no property has the name, because `GetProperty` then returns null. |
| SettingsPage.DerivedName | UniversalSearchSuggestions/Pages/SettingsPage.cs:63 | `Substring(4)` fails on a name shorter than four characters. Otherwise it returns the name without its first four characters. |
| SettingsPage.InvokeAsWritten | UniversalSearchSuggestions/Pages/SettingsPage.cs:60-106 | The edit command behaves as intended. No command as written touches the custom URL. |
| SettingsPage.LambdaNameNamesNoProperty | UniversalSearchSuggestions/Pages/SettingsPage.cs:63 | The name derived from a lambda compiled inside `GetItems` is not a property of `Settings`. |
| SettingsPage.LambdaGetterBreaksSetter | UniversalSearchSuggestions/Pages/SettingsPage.cs:63-89 | As written, every toggle and cycle command throws `NullReferenceException`. |
| SettingsPage.AccessorNameSetsTarget | UniversalSearchSuggestions/Pages/SettingsPage.cs:63 | Had the getter been compiled as `get_` followed by the name of the property it reads, every command would behave as `Invoke` states. |
| Json.LastValue | UniversalSearchSuggestions/Services/SuggestionService.cs:64 | A property lookup finds nothing exactly when no member has the name. Otherwise it finds the value of the last member with that name. |
| Json.Property | UniversalSearchSuggestions/Services/SuggestionService.cs:64 | `GetProperty` throws `InvalidOperationException` on a non-object and `KeyNotFoundException` for a missing name. It succeeds exactly when some member has the name. |
| Json.TryProperty | UniversalSearchSuggestions/Services/SuggestionService.cs:100 | `TryGetProperty` finds exactly what `GetProperty` finds. It still throws on a non-object. |
| Json.At | UniversalSearchSuggestions/Services/SuggestionService.cs:96 | The indexer succeeds exactly on an array long enough. |
| Json.Elements | UniversalSearchSuggestions/Services/SuggestionService.cs:66 | `EnumerateArray` succeeds exactly on an array and yields its elements. |
| Json.GetString | UniversalSearchSuggestions/Services/SuggestionService.cs:67 | `GetString` gives the text of a string, null for a JSON null, and an exception for anything else. |
| Outcomes.MapAll | UniversalSearchSuggestions/Services/SuggestionService.cs:86-88 | `Select(...).ToArray()` succeeds exactly when every element maps. It then keeps length and order. Otherwise it fails with the first element's failure. |
| Text.IndexOf | UniversalSearchSuggestions/Services/SuggestionService.cs:49 | The result is -1 exactly when the pattern is absent. Otherwise it is the first occurrence. |
| Text.LastIndexOf | UniversalSearchSuggestions/Services/SuggestionService.cs:50 | The result is -1 exactly when the pattern is absent. Otherwise it is the last occurrence. |
| Text.Substring | UniversalSearchSuggestions/Services/SuggestionService.cs:52 | `Substring` fails exactly when the range leaves the string. Otherwise it returns that slice. |
| Text.IsWhiteSpace | UniversalSearchSuggestions/Fallback/SuggestionsFallbackHandler.cs:40 | A Latin-1 character is white space exactly when it is the space, U+0009..U+000D, U+0085 or U+00A0. Any other character is white space exactly when its Unicode category is Zs, Zl or Zp. |
| Text.NullOrWhiteSpaceTrims | UniversalSearchSuggestions/Services/SearchEngineUrls.cs:22 | `IsNullOrWhiteSpace` holds exactly when the string is null or nothing remains after trimming its leading white space. This one test decides three things: the early exit on a blank query (SuggestionsFallbackHandler.cs:40), the bare-query result for a blank custom URL (SearchEngineUrls.cs:22), and the `(not set)` subtitle (SettingsPage.cs:48). |
| Text.Replace | UniversalSearchSuggestions/Services/SuggestionService.cs:114 | A text without the pattern comes back unchanged. A replacement no longer than the pattern never lengthens the text. |
| Text.ReplaceWithEmpty | UniversalSearchSuggestions/Services/SuggestionService.cs:114 | Deleting a pattern never lengthens the text. It changes the text exactly when the pattern occurs. |
| Text.DecimalRoundTrip | UniversalSearchSuggestions/Pages/SettingsPage.cs:39 | The decimal rendering of an undeclared enum value reads back as that value. |
| Sequences.IndexIn | UniversalSearchSuggestions/Pages/SettingsPage.cs:87 | `Array.IndexOf` is -1 exactly for a non-member. Otherwise it is the first index holding the value. |
| Sequences.Distinct | UniversalSearchSuggestions/Services/SuggestionService.cs:56 | `Distinct` returns no repeats and the same set of values, and is never longer than its input. |
| Sequences.DistinctKeepsFirstOccurrenceOrder | UniversalSearchSuggestions/Services/SuggestionService.cs:56 | The values are kept in order of their first occurrence. |
| Sequences.DistinctOfDuplicateFree | UniversalSearchSuggestions/Services/SuggestionService.cs:56 | Input without repeats passes through unchanged. |
| Sequences.DistinctBySeenSet | UniversalSearchSuggestions/Services/SuggestionService.cs:56 | The hash-set algorithm that `Distinct` runs computes exactly `Distinct`. |

## Left out

- HTTP: the GET is not modelled. The network is a parameter mapping each request URL to a response: a body, an HTTP error, a cancellation or a timeout. Status codes, headers and decompression are not modelled.
- Three library functions are parameters of `Platform`, because their behaviour lies outside this code:
  - `JsonDocument.Parse`, a partial function from text to a JSON tree;
  - `WebUtility.HtmlDecode`;
  - `Exception.Message`.
- Fallback.UpdateQuery: runs are sequential. Each run finishes before the next query arrives, and cancelling the previous run's token is the increment of the generation. The interleavings of the fire-and-forget tasks are not modelled. In the code, a superseded run can still clear the shared list or append to it after a newer run started.
- The host plumbing is not modelled:
  - icons;
  - `RaiseItemsChanged`, counted only as `refreshes`;
  - the settings file (`JsonSettingsManager`, `Save`);
  - the extension bootstrap and command provider;
  - the placeholder list page.
- The toast texts are modelled, but showing them is not.
- Text: strings are sequences of Unicode scalar values. `Uri.EscapeDataString` on a lone UTF-16 surrogate has no counterpart.
- Text.IndexOf: the empty pattern is excluded. The code never searches for one.
- A malformed body is an error, which the handler shows as an error item.

## Findings

| source | as written | input that shows it | evidently intended | confidence | as-written member | corrected member |
|---|---|---|---|---|---|---|
| UniversalSearchSuggestions/Pages/SettingsPage.cs:63 | The toggle and cycle setters take the property name as `expr.Method.Name.Substring(4)`. `expr` is a lambda declared in `GetItems`, whose compiled method is named `<GetItems>b__…`. | The first row's getter, compiled as `<GetItems>b__1_0`, gives `Items>b__1_0`. No property has that name, so `GetProperty` returns null and `SetValue` throws `NullReferenceException`. | The setter assigns the property the getter reads, as it would for an accessor named `get_AlwaysShowQueryCard`. | not executed; high | SettingsPage.LambdaGetterBreaksSetter | SettingsPage.Invoke |

=== FILE: fallback_handler.dfy ===
/** `SuggestionsFallbackHandler`: the list of fallback items the palette shows
    for the text typed so far. Runs are modelled one at a time: each run of
    `UpdateAsync` finishes before the next query arrives, and the network is
    a given function from request URL to response. */
module Fallback {
  import opened Outcomes
  import opened Text
  import opened Config
  import SearchEngineUrls
  import SuggestionService
  import UriEscape

  /** What invoking an item does. */
  datatype Command = OpenUrl(url: string) | NoOp

  /** A list item: its title, its subtitle and its command. */
  datatype Item = Item(title: string, subtitle: string, command: Command)

  const ErrorTitle := "Error fetching suggestions"

  /** The item for a non-null text: titled with the text, opening the
      selected engine's results page for it. */
  function SearchItem(s: Settings, text: string): Item {
    Item(text, "", OpenUrl(SearchEngineUrls.Resolve(s, text)))
  }

  /** `CreateSearchItem(text)`. A null text makes `Uri.EscapeDataString`
      throw before the item exists. */
  function CreateSearchItem(s: Settings, text: NullableString): (r: Result<Item>)
    ensures r.Err? <==> text.None?
    ensures r.Err? ==> r.failure == ArgumentNull
    ensures r.Ok? ==> r.value.title == text.value && r.value.subtitle == "" && r.value.command.OpenUrl?
    ensures r.Ok? ==> EndsWith(r.value.command.url, UriEscape.EscapeDataString(text.value))
  {
    match text
    case None => Err(ArgumentNull)
    case Some(t) => Ok(SearchItem(s, t))
  }

  /** A search item opens exactly its own title: removing the engine's fixed
      prefix from its URL and unescaping the rest gives the title back, so
      two search items with the same URL have the same title. */
  lemma SearchItemOpensItsTitle(s: Settings, text: string)
    ensures var url := CreateSearchItem(s, Some(text)).value.command.url;
      && StartsWith(url, SearchEngineUrls.Resolve(s, ""))
      && UriEscape.Unescape(url[|SearchEngineUrls.Resolve(s, "")|..]) == Some(text)
  {
    var prefix := SearchEngineUrls.Resolve(s, "");
    var url := CreateSearchItem(s, Some(text)).value.command.url;
    SearchEngineUrls.ResolveIsPrefixPlusQuery(s, text);
    assert url[|prefix|..] == UriEscape.EscapeDataString(text);
    UriEscape.EscapeRoundTrip(text);
  }

  /** `Exception.Message` of a failure; an `HttpRequestException` carries the
      text the HTTP stack gave it. */
  function Message(p: SuggestionService.Platform, f: Failure): string {
    match f
    case HttpRequest(m) => m
    case _ => p.message(f)
  }

  /** The item the `catch (Exception)` clause adds. */
  function ErrorItem(p: SuggestionService.Platform, f: Failure): Item {
    Item(ErrorTitle, Message(p, f), NoOp)
  }

  /** The items added by the `foreach`, and the failure that stopped it. */
  datatype Added = Added(items: seq<Item>, failure: Option<Failure>)

  /** The position of the first null suggestion, or the length when there
      is none. */
  function FirstNull(xs: seq<NullableString>): (k: nat)
    ensures k <= |xs|
    ensures forall i :: 0 <= i < k ==> xs[i].Some?
    ensures k < |xs| ==> xs[k].None?
  {
    if |xs| == 0 || xs[0].None? then 0 else 1 + FirstNull(xs[1..])
  }

  /** The `foreach` over the suggestions: one search item each, in order,
      until the first null suggestion makes `CreateSearchItem` throw; the
      items added before it stay in the list. */
  function AddItems(s: Settings, xs: seq<NullableString>): (r: Added)
    ensures r.failure.None? <==> forall i :: 0 <= i < |xs| ==> xs[i].Some?
    ensures r.failure.Some? ==> r.failure.value == ArgumentNull
    ensures r.failure.None? ==> |r.items| == |xs|
    ensures r.failure.Some? ==> |r.items| < |xs| && xs[|r.items|].None?
    ensures forall i :: 0 <= i < |r.items| ==> xs[i].Some? && CreateSearchItem(s, xs[i]) == Ok(r.items[i])
  {
    var k := FirstNull(xs);
    var items := seq(k, i requires 0 <= i < k => SearchItem(s, xs[i].value));
    if k < |xs| then Added(items, Some(ArgumentNull)) else Added(items, None)
  }

  /** The result of one `UpdateAsync` run: the final contents of the item
      list and how many times the provider was told to refresh. */
  datatype Run = Run(items: seq<Item>, refreshes: nat)

  /** The well-formed item lists: every search item opens the engine's page
      for its own title, and an error item can only come last. */
  predicate WellFormedItems(s: Settings, items: seq<Item>) {
    && (forall i :: 0 <= i < |items| && items[i].command.OpenUrl? ==>
          items[i].command.url == SearchEngineUrls.Resolve(s, items[i].title))
    && (forall i :: 0 <= i < |items| && items[i].command.NoOp? ==>
          i == |items| - 1 && items[i].title == ErrorTitle)
  }

  /** The body of the `try` after the fetch, with its `catch` clauses: the
      list as the fetch outcome leaves it. */
  function Listed(p: SuggestionService.Platform, s: Settings, query: string,
                  fetched: Result<seq<NullableString>>): (items: seq<Item>)
    ensures WellFormedItems(s, items)
  {
    match fetched
    case Err(OperationCanceled) => []
    case Err(f) => [ErrorItem(p, f)]
    case Ok(xs) =>
      var added := AddItems(s, xs);
      if added.failure.Some? then added.items + [ErrorItem(p, added.failure.value)]
      else if |added.items| == 0 && s.alwaysShowQueryCard then [CreateSearchItem(s, Some(query)).value]
      else added.items
  }

  /** `UpdateAsync(query, token)`. The list is cleared first; a blank query
      refreshes inside the `try` and again in the `finally`. */
  function UpdateAsync(p: SuggestionService.Platform, s: Settings, query: string,
                       network: string -> SuggestionService.Response): (r: Run)
    ensures IsBlank(query) ==> r == Run([], 2)
    ensures !IsBlank(query) ==> r.refreshes == 1
    ensures WellFormedItems(s, r.items)
  {
    if IsBlank(query) then Run([], 2)
    else Run(Listed(p, s, query, SuggestionService.Fetch(p, query, s.selectedProvider, network)), 1)
  }

  /** A blank query clears the list without asking the network anything. */
  lemma BlankQueryNoFetch(p: SuggestionService.Platform, s: Settings, query: string,
                          n1: string -> SuggestionService.Response, n2: string -> SuggestionService.Response)
    requires IsBlank(query)
    ensures UpdateAsync(p, s, query, n1) == UpdateAsync(p, s, query, n2)
    ensures UpdateAsync(p, s, query, n1).items == []
  {
  }

  /** When every suggestion is a string, the list holds one search item per
      suggestion, in the provider's order, titled with the suggestion. */
  lemma SuccessOneItemPerSuggestion(p: SuggestionService.Platform, s: Settings, query: string,
                                    network: string -> SuggestionService.Response, xs: seq<string>)
    requires !IsBlank(query) && |xs| > 0
    requires SuggestionService.Fetch(p, query, s.selectedProvider, network) == Ok(seq(|xs|, i requires 0 <= i < |xs| => Some(xs[i])))
    ensures var items := UpdateAsync(p, s, query, network).items;
      && |items| == |xs|
      && forall i :: 0 <= i < |xs| ==>
           items[i] == Item(xs[i], "", OpenUrl(SearchEngineUrls.Resolve(s, xs[i])))
  {
    var ys := seq(|xs|, i requires 0 <= i < |xs| => Some(xs[i]));
    assert forall i :: 0 <= i < |ys| ==> ys[i].Some?;
    var added := AddItems(s, ys);
    assert added.failure.None? && |added.items| == |xs|;
    forall i | 0 <= i < |xs|
      ensures added.items[i] == SearchItem(s, xs[i])
    {
      assert ys[i] == Some(xs[i]);
      assert CreateSearchItem(s, ys[i]) == Ok(added.items[i]);
    }
    assert UpdateAsync(p, s, query, network).items == Listed(p, s, query, Ok(ys)) == added.items;
  }

  /** The query card appears only when the provider returned no suggestion
      at all, and then only if the setting asks for it. */
  lemma QueryCardOnlyWhenEmpty(p: SuggestionService.Platform, s: Settings, query: string,
                               network: string -> SuggestionService.Response)
    requires !IsBlank(query)
    requires SuggestionService.Fetch(p, query, s.selectedProvider, network) == Ok([])
    ensures UpdateAsync(p, s, query, network).items ==
      if s.alwaysShowQueryCard then [Item(query, "", OpenUrl(SearchEngineUrls.Resolve(s, query)))] else []
  {
  }

  /** A failed fetch leaves one error item whose subtitle is the exception's
      message, except a cancellation or timeout, which leaves the list empty. */
  lemma FailureOutcome(p: SuggestionService.Platform, s: Settings, query: string,
                       network: string -> SuggestionService.Response, f: Failure)
    requires !IsBlank(query)
    requires SuggestionService.Fetch(p, query, s.selectedProvider, network) == Err(f)
    ensures f == OperationCanceled ==> UpdateAsync(p, s, query, network).items == []
    ensures f != OperationCanceled ==> UpdateAsync(p, s, query, network).items == [Item(ErrorTitle, Message(p, f), NoOp)]
  {
  }

  /** A provider the settings name but the service does not know is reported
      as a `NotSupportedException`. */
  lemma UndeclaredProviderIsReported(p: SuggestionService.Platform, s: Settings, query: string,
                                     network: string -> SuggestionService.Response)
    requires !IsBlank(query) && s.selectedProvider.OtherProvider?
    ensures UpdateAsync(p, s, query, network).items == [ErrorItem(p, NotSupported)]
  {
  }

  /** A null suggestion stops the list: the search items for the suggestions
      before it stay, followed by one error item, and no query card. */
  lemma NullSuggestionKeepsPrefix(p: SuggestionService.Platform, s: Settings, query: string,
                                  network: string -> SuggestionService.Response,
                                  xs: seq<NullableString>, k: nat)
    requires !IsBlank(query)
    requires SuggestionService.Fetch(p, query, s.selectedProvider, network) == Ok(xs)
    requires k < |xs| && xs[k].None? && forall i :: 0 <= i < k ==> xs[i].Some?
    ensures var items := UpdateAsync(p, s, query, network).items;
      && |items| == k + 1
      && (forall i :: 0 <= i < k ==> items[i] == Item(xs[i].value, "", OpenUrl(SearchEngineUrls.Resolve(s, xs[i].value))))
      && items[k] == ErrorItem(p, ArgumentNull)
  {
    var added := AddItems(s, xs);
    assert added.failure.Some?;
    assert |added.items| == k;
  }

  // ---- The handler --------------------------------------------------------

  /** The handler's state: the last query it ran for, the item list that
      `Items()` copies out, how many refreshes it has signalled, and its
      generation: the number of runs started, each replacing the
      cancellation source of the one before. */
  datatype Handler = Handler(lastQuery: string, items: seq<Item>, refreshes: nat, generation: nat)

  /** A new handler: `_lastQuery` starts as the empty string. */
  function Initial(): Handler {
    Handler("", [], 0, 0)
  }

  /** `UpdateQuery(query)`: an ordinally equal query is ignored; any other
      one is remembered and starts a run. */
  function UpdateQuery(h: Handler, p: SuggestionService.Platform, s: Settings, query: string,
                       network: string -> SuggestionService.Response): (r: Handler)
    ensures query == h.lastQuery ==> r == h
    ensures query != h.lastQuery ==> r.lastQuery == query && r.generation == h.generation + 1 && r.refreshes > h.refreshes
  {
    if query == h.lastQuery then h
    else
      var run := UpdateAsync(p, s, query, network);
      Handler(query, run.items, h.refreshes + run.refreshes, h.generation + 1)
  }

  /** The list shows what a run for the remembered query produces. */
  predicate Consistent(h: Handler, p: SuggestionService.Platform, s: Settings,
                       network: string -> SuggestionService.Response) {
    h.items == UpdateAsync(p, s, h.lastQuery, network).items
  }

  /** A new handler is consistent, and the empty first query changes nothing. */
  lemma InitialIsQuiet(p: SuggestionService.Platform, s: Settings,
                       network: string -> SuggestionService.Response)
    ensures Consistent(Initial(), p, s, network)
    ensures UpdateQuery(Initial(), p, s, "", network) == Initial()
  {
  }

  /** Every query keeps the list consistent with the remembered query. */
  lemma UpdateQueryKeepsConsistent(h: Handler, p: SuggestionService.Platform, s: Settings, query: string,
                                   network: string -> SuggestionService.Response)
    requires Consistent(h, p, s, network)
    ensures Consistent(UpdateQuery(h, p, s, query, network), p, s, network)
  {
  }

  /** The handler after a sequence of queries. */
  function Steps(h: Handler, p: SuggestionService.Platform, s: Settings, queries: seq<string>,
                 network: string -> SuggestionService.Response): Handler
    decreases |queries|
  {
    if |queries| == 0 then h
    else Steps(UpdateQuery(h, p, s, queries[0], network), p, s, queries[1..], network)
  }

  /** How many queries differ from the one before them. */
  function Changes(previous: string, queries: seq<string>): nat
    decreases |queries|
  {
    if |queries| == 0 then 0
    else (if queries[0] != previous then 1 else 0) + Changes(queries[0], queries[1..])
  }

  /** Over a sequence of queries, a run starts exactly for each query that
      differs from its predecessor, each run refreshes at least once, the
      handler ends up remembering the last query, and the list is the one
      that query produces. */
  lemma {:induction false} StepsSummary(h: Handler, p: SuggestionService.Platform, s: Settings,
                                        queries: seq<string>, network: string -> SuggestionService.Response)
    requires Consistent(h, p, s, network)
    ensures var r := Steps(h, p, s, queries, network);
      && r.generation == h.generation + Changes(h.lastQuery, queries)
      && r.refreshes >= h.refreshes + Changes(h.lastQuery, queries)
      && r.lastQuery == (if |queries| == 0 then h.lastQuery else queries[|queries| - 1])
      && Consistent(r, p, s, network)
    decreases |queries|
  {
    if |queries| > 0 {
      var next := UpdateQuery(h, p, s, queries[0], network);
      UpdateQueryKeepsConsistent(h, p, s, queries[0], network);
      StepsSummary(next, p, s, queries[1..], network);
      if |queries| > 1 {
        assert queries[1..][|queries[1..]| - 1] == queries[|queries| - 1];
      }
    }
  }
}

=== FILE: json.dfy ===
/** A parsed JSON document as the value tree of section 3 of RFC 8259, and the
    `System.Text.Json.JsonElement` accessors the suggestion parsers use. Each
    accessor returns the exception the .NET member throws instead of a value. */
module Json {
  import opened Outcomes

  /** The six kinds of JSON value. An object keeps its members in document
      order, duplicates included, since section 4 of RFC 8259 only says names
      SHOULD be unique. */
  datatype Json =
    | JNull
    | JBool(b: bool)
    | JNumber(n: real)
    | JString(s: string)
    | JArray(elements: seq<Json>)
    | JObject(members: seq<Member>)

  datatype Member = Member(name: string, value: Json)

  /** The value of the last member called `name`: `JsonElement` matches the
      last definition of a repeated property. */
  function LastValue(members: seq<Member>, name: string): (r: Option<Json>)
    ensures r.None? <==> forall i :: 0 <= i < |members| ==> members[i].name != name
    ensures r.Some? ==> exists i :: 0 <= i < |members| && members[i] == Member(name, r.value)
                                    && forall j :: i < j < |members| ==> members[j].name != name
  {
    if |members| == 0 then None
    else
      var last := members[|members| - 1];
      if last.name == name then Some(last.value)
      else LastValue(members[..|members| - 1], name)
  }

  /** `JsonElement.GetProperty(name)`. */
  function Property(j: Json, name: string): (r: Result<Json>)
    ensures !j.JObject? ==> r == Err(InvalidOperation)
    ensures j.JObject? ==> (r.Ok? <==> exists i :: 0 <= i < |j.members| && j.members[i].name == name)
    ensures j.JObject? && r.Err? ==> r == Err(KeyNotFound(name))
  {
    if !j.JObject? then Err(InvalidOperation)
    else
      match LastValue(j.members, name)
      case None => Err(KeyNotFound(name))
      case Some(v) => Ok(v)
  }

  /** `JsonElement.TryGetProperty(name, out value)`: absence is not an error,
      but an element that is not an object still is. */
  function TryProperty(j: Json, name: string): (r: Result<Option<Json>>)
    ensures r.Err? <==> !j.JObject?
    ensures r.Ok? ==> (r.value.Some? <==> Property(j, name).Ok?)
    ensures r.Ok? && r.value.Some? ==> Property(j, name) == Ok(r.value.value)
  {
    if !j.JObject? then Err(InvalidOperation) else Ok(LastValue(j.members, name))
  }

  /** The indexer `element[index]` of an array element. */
  function At(j: Json, index: nat): (r: Result<Json>)
    ensures r.Ok? <==> j.JArray? && index < |j.elements|
    ensures r.Ok? ==> r.value == j.elements[index]
    ensures !j.JArray? ==> r == Err(InvalidOperation)
  {
    if !j.JArray? then Err(InvalidOperation)
    else if index < |j.elements| then Ok(j.elements[index])
    else Err(IndexOutOfRange(index))
  }

  /** `JsonElement.EnumerateArray()`. */
  function Elements(j: Json): (r: Result<seq<Json>>)
    ensures r.Ok? <==> j.JArray?
    ensures r.Ok? ==> r.value == j.elements
  {
    if j.JArray? then Ok(j.elements) else Err(InvalidOperation)
  }

  /** `JsonElement.GetString()`: the text of a string, `null` for a JSON null,
      an exception for every other kind. */
  function GetString(j: Json): (r: Result<NullableString>)
    ensures r.Ok? <==> j.JString? || j.JNull?
    ensures j.JString? ==> r == Ok(Some(j.s))
    ensures j.JNull? ==> r == Ok(None)
  {
    match j
    case JString(s) => Ok(Some(s))
    case JNull => Ok(None)
    case _ => Err(InvalidOperation)
  }

  /** One accessor on a path from the root of a document: a property name
      or an array index. */
  datatype Step = Key(name: string) | Index(index: nat)

  /** The accessors of `path` applied in order, stopping at the first one
      that throws. */
  function Walk(j: Json, path: seq<Step>): Result<Json>
    decreases |path|
  {
    if |path| == 0 then Ok(j)
    else
      var next :- Apply(j, path[0]);
      Walk(next, path[1..])
  }

  function Apply(j: Json, step: Step): Result<Json> {
    match step
    case Key(name) => Property(j, name)
    case Index(index) => At(j, index)
  }

  /** Walking a path is one step and then the rest of the path. */
  lemma WalkCons(j: Json, step: Step, rest: seq<Step>)
    ensures Apply(j, step).Err? ==> Walk(j, [step] + rest) == Err(Apply(j, step).failure)
    ensures Apply(j, step).Ok? ==> Walk(j, [step] + rest) == Walk(Apply(j, step).value, rest)
  {
    assert ([step] + rest)[1..] == rest;
  }
}

=== FILE: outcomes.dfy ===
/** Option, Result and the exceptions of the modelled code.

    Every operation that throws in the C# code returns a `Result` here; the
    `Failure` constructors name the .NET exception types that can reach the
    fallback handler's `catch` clauses. */
module Outcomes {

  datatype Option<+T> = None | Some(value: T) {

    predicate IsFailure() {
      None?
    }

    function PropagateFailure<U>(): Option<U>
      requires None?
    {
      None
    }

    function Extract(): T
      requires Some?
    {
      value
    }
  }

  /** A C# `string` reference: `None` stands for `null`. */
  type NullableString = Option<string>

  /** The .NET exceptions the modelled code can raise. */
  datatype Failure =
    | JsonFormat                  // JsonException: the text is not a JSON document
    | InvalidOperation            // JsonElement accessor applied to an element of the wrong kind
    | KeyNotFound(name: string)   // JsonElement.GetProperty of an absent property
    | IndexOutOfRange(index: int) // JsonElement indexer past the last element
    | ArgumentOutOfRange          // String.Substring with a negative length
    | NullReference               // a member called on a null reference
    | ArgumentNull                // Uri.EscapeDataString(null)
    | Argument                    // PropertyInfo.SetValue with a value of another type
    | NotSupported                // a suggestion provider outside the enum
    | HttpRequest(message: string) // HttpClient: non-success status or transport error
    | OperationCanceled           // token cancelled, or HttpClient timeout (TaskCanceledException)

  /** The outcome of a call that either returns a value or throws. */
  datatype Result<+T> = Ok(value: T) | Err(failure: Failure) {

    predicate IsFailure() {
      Err?
    }

    function PropagateFailure<U>(): Result<U>
      requires Err?
    {
      Err(failure)
    }

    function Extract(): T
      requires Ok?
    {
      value
    }
  }

  /** Applies `f` to every element in order and stops at the first failure,
      as `Select(...).ToArray()` and a `foreach` that adds to a list do. */
  function MapAll<A, B>(xs: seq<A>, f: A -> Result<B>): (r: Result<seq<B>>)
    ensures r.Ok? <==> forall i :: 0 <= i < |xs| ==> f(xs[i]).Ok?
    ensures r.Ok? ==> |r.value| == |xs|
    ensures r.Ok? ==> forall i :: 0 <= i < |xs| ==> r.value[i] == f(xs[i]).value
    ensures r.Err? ==> exists k :: 0 <= k < |xs| && f(xs[k]) == Err(r.failure) && forall j :: 0 <= j < k ==> f(xs[j]).Ok?
  {
    if |xs| == 0 then Ok([])
    else
      var head := f(xs[0]);
      if head.Err? then
        Err(head.failure)
      else
        var tail := MapAll(xs[1..], f);
        if tail.Err? then
          assert forall j :: 1 <= j < |xs| ==> xs[j] == xs[1..][j - 1];
          Err(tail.failure)
        else
          Ok([head.value] + tail.value)
  }
}

=== FILE: search_engine_urls.dfy ===
/** The URL a suggestion opens: the selected engine's search page with the
    escaped suggestion as its query parameter. */
module SearchEngineUrls {
  import opened Outcomes
  import opened Text
  import opened Config
  import opened UriEscape

  /** The six engines with a fixed search page. */
  predicate IsNamedEngine(e: SearchEngine) {
    !e.Custom? && !e.OtherEngine?
  }

  /** An https URL: the host and path, then the query string up to the
      parameter that receives the escaped text. */
  function Https(location: string, parameter: string): (r: string)
    ensures StartsWith(r, "https://") && EndsWith(r, parameter)
  {
    "https://" + location + parameter
  }

  /** The search page of a named engine, up to and including the name of the
      query parameter. */
  function SearchPage(e: SearchEngine): string
    requires IsNamedEngine(e)
  {
    match e
    case Google => Https("www.google.com/search?", "q=")
    case Bing => Https("www.bing.com/search?", "q=")
    case Yahoo => Https("search.yahoo.com/search", "?p=")
    case DuckDuckGo => Https("duckduckgo.com/?", "q=")
    case Brave => Https("search.brave.com/search?", "q=")
    case Ecosia => Https("www.ecosia.org/search?", "q=")
  }

  /** `SearchEngineUrls.Resolve(s, query)` for a non-null query. */
  function Resolve(s: Settings, query: string): (r: string)
    ensures EndsWith(r, EscapeDataString(query))
  {
    var q := EscapeDataString(query);
    var e := s.selectedEngine;
    if IsNamedEngine(e) then SearchPage(e) + q
    else if e.Custom? then
      if IsNullOrWhiteSpace(s.customEngineUrl) then q else s.customEngineUrl.value + q
    else q
  }

  /** For every engine the URL is a query-independent prefix, namely the URL
      for the empty query, followed by the escaped query. */
  lemma ResolveIsPrefixPlusQuery(s: Settings, query: string)
    ensures Resolve(s, query) == Resolve(s, "") + EscapeDataString(query)
  {
    var q := EscapeDataString(query);
    var e := s.selectedEngine;
    assert EscapeDataString("") == "";
    if IsNamedEngine(e) {
      var page := SearchPage(e);
      assert Resolve(s, "") == page + "" == page;
      assert Resolve(s, query) == page + q;
    } else if e.Custom? && !IsNullOrWhiteSpace(s.customEngineUrl) {
      var base := s.customEngineUrl.value;
      assert Resolve(s, "") == base + "" == base;
      assert Resolve(s, query) == base + q;
    } else {
      assert Resolve(s, "") == "";
      assert Resolve(s, query) == q;
    }
  }

  /** Each named engine opens an https search page whose query parameter is
      `q=`, except Yahoo's, which is `p=`. */
  lemma NamedEngineParameter(s: Settings, query: string)
    requires IsNamedEngine(s.selectedEngine)
    ensures Resolve(s, query) == SearchPage(s.selectedEngine) + EscapeDataString(query)
    ensures StartsWith(SearchPage(s.selectedEngine), "https://")
    ensures EndsWith(SearchPage(s.selectedEngine), if s.selectedEngine == SearchEngine.Yahoo then "?p=" else "q=")
  {
  }

  /** A custom engine whose base URL is null, empty or white space opens the
      bare escaped query. */
  lemma BlankCustomEngine(s: Settings, query: string)
    requires s.selectedEngine == SearchEngine.Custom && IsNullOrWhiteSpace(s.customEngineUrl)
    ensures Resolve(s, query) == EscapeDataString(query)
  {
  }

  /** A custom base URL is used verbatim: no separator, no validation. */
  lemma CustomEngineVerbatim(s: Settings, query: string)
    requires s.selectedEngine == SearchEngine.Custom && !IsNullOrWhiteSpace(s.customEngineUrl)
    ensures StartsWith(Resolve(s, query), s.customEngineUrl.value)
    ensures Resolve(s, query)[|s.customEngineUrl.value|..] == EscapeDataString(query)
  {
  }

  /** An engine value outside the enum falls back to the bare escaped query. */
  lemma UndeclaredEngine(s: Settings, query: string)
    requires s.selectedEngine.OtherEngine?
    ensures Resolve(s, query) == EscapeDataString(query)
  {
  }

  /** The provider and the two flags play no part in the URL. */
  lemma ResolveIgnoresOtherSettings(s: Settings, t: Settings, query: string)
    requires s.selectedEngine == t.selectedEngine
    requires s.selectedEngine == SearchEngine.Custom ==> s.customEngineUrl == t.customEngineUrl
    ensures Resolve(s, query) == Resolve(t, query)
  {
  }

  /** Different suggestions open different URLs under the same settings. */
  lemma ResolveInjective(s: Settings, a: string, b: string)
    requires Resolve(s, a) == Resolve(s, b)
    ensures a == b
  {
    ResolveIsPrefixPlusQuery(s, a);
    ResolveIsPrefixPlusQuery(s, b);
    var p := Resolve(s, "");
    assert EscapeDataString(a) == Resolve(s, a)[|p|..];
    assert EscapeDataString(b) == Resolve(s, b)[|p|..];
    EscapeInjective(a, b);
  }
}

=== FILE: sequences.dfy ===
/** Sequence operations of .NET collections: `Array.IndexOf` and the
    first-occurrence de-duplication of `Enumerable.Distinct`. */
module Sequences {

  /** `Array.IndexOf(xs, x)`: the index of the first occurrence, or -1. */
  function IndexIn<T(==)>(xs: seq<T>, x: T): (i: int)
    ensures -1 <= i < |xs|
    ensures i == -1 <==> x !in xs
    ensures 0 <= i ==> xs[i] == x && x !in xs[..i]
  {
    if |xs| == 0 then -1
    else if xs[0] == x then 0
    else
      var k := IndexIn(xs[1..], x);
      assert xs == [xs[0]] + xs[1..];
      if k == -1 then -1
      else
        assert xs[..k + 1] == [xs[0]] + xs[1..][..k];
        k + 1
  }

  /** The first occurrence is the only index holding `x` with no `x` before it. */
  lemma IndexInUnique<T>(xs: seq<T>, x: T, i: int)
    requires 0 <= i < |xs| && xs[i] == x && x !in xs[..i]
    ensures IndexIn(xs, x) == i
  {
  }

  predicate NoDuplicates<T(==)>(xs: seq<T>) {
    forall i, j :: 0 <= i < j < |xs| ==> xs[i] != xs[j]
  }

  /** `Enumerable.Distinct` under the default (ordinal) equality: every value
      once, at the position of its first occurrence. */
  function Distinct<T(==)>(xs: seq<T>): (r: seq<T>)
    ensures NoDuplicates(r)
    ensures forall i :: 0 <= i < |xs| ==> xs[i] in r
    ensures forall i :: 0 <= i < |r| ==> r[i] in xs
    ensures |r| <= |xs|
    decreases |xs|
  {
    if |xs| == 0 then []
    else
      var d := Distinct(xs[..|xs| - 1]);
      var last := xs[|xs| - 1];
      assert xs == xs[..|xs| - 1] + [last];
      if last in d then d else d + [last]
  }

  /** The values `Distinct` keeps appear in the order of their first
      occurrences in the input. */
  lemma {:induction false} DistinctKeepsFirstOccurrenceOrder<T>(xs: seq<T>)
    ensures forall i, j :: 0 <= i < j < |Distinct(xs)| ==>
      IndexIn(xs, Distinct(xs)[i]) < IndexIn(xs, Distinct(xs)[j])
  {
    if |xs| > 0 {
      var p := xs[..|xs| - 1];
      var last := xs[|xs| - 1];
      var d := Distinct(p);
      DistinctKeepsFirstOccurrenceOrder(p);
      forall y | y in p
        ensures IndexIn(xs, y) == IndexIn(p, y)
      {
        var k := IndexIn(p, y);
        assert xs[..k] == p[..k];
        IndexInUnique(xs, y, k);
      }
      if last !in d {
        assert last !in xs[..|xs| - 1];
        IndexInUnique(xs, last, |xs| - 1);
        var r := d + [last];
        forall i, j | 0 <= i < j < |r|
          ensures IndexIn(xs, r[i]) < IndexIn(xs, r[j])
        {
          assert r[i] == d[i] && r[i] in p;
          if j < |d| {
            assert r[j] == d[j] && r[j] in p;
          }
        }
      }
    }
  }

  /** Input without duplicates passes through unchanged. */
  lemma {:induction false} DistinctOfDuplicateFree<T>(xs: seq<T>)
    requires NoDuplicates(xs)
    ensures Distinct(xs) == xs
  {
    if |xs| > 0 {
      var p := xs[..|xs| - 1];
      assert NoDuplicates(p);
      DistinctOfDuplicateFree(p);
      assert xs[|xs| - 1] !in p;
      assert p + [xs[|xs| - 1]] == xs;
    }
  }

  /** The algorithm `Enumerable.Distinct` runs: yield each element not yet in
      a hash set of the elements seen so far. */
  method DistinctBySeenSet<T(==)>(xs: seq<T>) returns (r: seq<T>)
    ensures r == Distinct(xs)
  {
    var seen: set<T> := {};
    r := [];
    var i := 0;
    while i < |xs|
      invariant 0 <= i <= |xs|
      invariant r == Distinct(xs[..i])
      invariant forall x :: x in seen <==> x in r
    {
      assert xs[..i + 1][..i] == xs[..i];
      if xs[i] !in seen {
        seen := seen + {xs[i]};
        r := r + [xs[i]];
      }
      i := i + 1;
    }
    assert xs[..|xs|] == xs;
  }
}

=== FILE: settings.dfy ===
/** The persisted configuration record and its two enumerations. */
module Config {
  import opened Outcomes
  import Text
  import opened Sequences

  /** The search engine that opens a chosen suggestion. A C# enum variable
      can hold any integer (the settings file is deserialized without range
      checks), so values outside the declared members are `OtherEngine`. */
  datatype SearchEngine =
    | Google | Bing | Yahoo | DuckDuckGo | Brave | Ecosia | Custom
    | OtherEngine(raw: int)

  /** The remote API that supplies suggestions, with the same provision for
      undeclared values. */
  datatype SuggestionProvider =
    | Google | Bing | Yahoo | DuckDuckGo | Brave | Ecosia
    | OtherProvider(raw: int)

  /** The declared members in declaration order: what `Enum.GetValues`
      returns, since the underlying values are 0, 1, 2, ... */
  const Engines: seq<SearchEngine> := [
    SearchEngine.Google, SearchEngine.Bing, SearchEngine.Yahoo, SearchEngine.DuckDuckGo,
    SearchEngine.Brave, SearchEngine.Ecosia, SearchEngine.Custom]

  const Providers: seq<SuggestionProvider> := [
    SuggestionProvider.Google, SuggestionProvider.Bing, SuggestionProvider.Yahoo,
    SuggestionProvider.DuckDuckGo, SuggestionProvider.Brave, SuggestionProvider.Ecosia]

  /** The range of a C# `int`, the underlying type of both enumerations. */
  type Int32 = x: int | -0x8000_0000 <= x < 0x8000_0000

  /** The engine values a C# `SearchEngine` variable can hold: each integer
      has exactly one representation. */
  type Engine = e: SearchEngine | WellFormedEngine(e) witness SearchEngine.Google

  type Provider = p: SuggestionProvider | WellFormedProvider(p) witness SuggestionProvider.Google

  /** The settings record. `customEngineUrl` is a nullable C# string. */
  datatype Settings = Settings(
    selectedEngine: Engine,
    selectedProvider: Provider,
    customEngineUrl: NullableString,
    alwaysShowQueryCard: bool,
    enableSerpMarkdown: bool)

  /** The property initializers of `new Settings()`. */
  function Defaults(): Settings {
    Settings(SearchEngine.Google, SuggestionProvider.Google, Some(""), true, false)
  }

  /** An undeclared value is a 32-bit integer that never collides with a
      declared one. */
  predicate WellFormedEngine(e: SearchEngine) {
    e.OtherEngine? ==> !(0 <= e.raw < |Engines|) && -0x8000_0000 <= e.raw < 0x8000_0000
  }

  predicate WellFormedProvider(p: SuggestionProvider) {
    p.OtherProvider? ==> !(0 <= p.raw < |Providers|) && -0x8000_0000 <= p.raw < 0x8000_0000
  }

  /** The underlying integer of an engine value. */
  function EngineValue(e: Engine): Int32 {
    match e
    case OtherEngine(raw) => raw
    case _ => IndexIn(Engines, e)
  }

  /** The engine value an integer denotes. */
  function EngineFromValue(v: Int32): (e: Engine)
    ensures e in Engines <==> 0 <= v < |Engines|
  {
    if 0 <= v < |Engines| then Engines[v] else OtherEngine(v)
  }

  function ProviderValue(p: Provider): Int32 {
    match p
    case OtherProvider(raw) => raw
    case _ => IndexIn(Providers, p)
  }

  function ProviderFromValue(v: Int32): (p: Provider)
    ensures p in Providers <==> 0 <= v < |Providers|
  {
    if 0 <= v < |Providers| then Providers[v] else OtherProvider(v)
  }

  /** Engine values and integers convert back and forth without loss. */
  lemma EngineValueRoundTrip(e: Engine, v: Int32)
    ensures EngineFromValue(EngineValue(e)) == e
    ensures EngineValue(EngineFromValue(v)) == v
  {
    if !e.OtherEngine? {
      assert e in Engines;
    }
    if 0 <= v < |Engines| {
      assert Engines[v] !in Engines[..v];
    }
  }

  lemma ProviderValueRoundTrip(p: Provider, v: Int32)
    ensures ProviderFromValue(ProviderValue(p)) == p
    ensures ProviderValue(ProviderFromValue(v)) == v
  {
    if !p.OtherProvider? {
      assert p in Providers;
    }
    if 0 <= v < |Providers| {
      assert Providers[v] !in Providers[..v];
    }
  }

  /** `Enum.ToString()`: the member name, or the decimal value of an
      undeclared one. */
  function EngineName(e: SearchEngine): string {
    match e
    case Google => "Google"
    case Bing => "Bing"
    case Yahoo => "Yahoo"
    case DuckDuckGo => "DuckDuckGo"
    case Brave => "Brave"
    case Ecosia => "Ecosia"
    case Custom => "Custom"
    case OtherEngine(raw) => Text.Decimal(raw)
  }

  function ProviderName(p: SuggestionProvider): string {
    match p
    case Google => "Google"
    case Bing => "Bing"
    case Yahoo => "Yahoo"
    case DuckDuckGo => "DuckDuckGo"
    case Brave => "Brave"
    case Ecosia => "Ecosia"
    case OtherProvider(raw) => Text.Decimal(raw)
  }

  /** `SearchEngine` declares seven members with distinct names, ending with
      `Custom`; `SuggestionProvider` declares the first six under the same
      names and in the same order. */
  lemma EnumerationsAlign()
    ensures |Engines| == 7 && |Providers| == 6
    ensures Engines[6] == SearchEngine.Custom
    ensures forall i, j :: 0 <= i < j < |Engines| ==> EngineName(Engines[i]) != EngineName(Engines[j])
    ensures forall i :: 0 <= i < |Providers| ==> ProviderName(Providers[i]) == EngineName(Engines[i])
  {
    var names := ["Google", "Bing", "Yahoo", "DuckDuckGo", "Brave", "Ecosia", "Custom"];
    assert forall i :: 0 <= i < 7 ==> EngineName(Engines[i]) == names[i];
    assert forall i :: 0 <= i < 6 ==> ProviderName(Providers[i]) == names[i];
    forall i, j | 0 <= i < j < 7
      ensures names[i] != names[j]
    {
      assert names[i][0] != names[j][0] || |names[i]| != |names[j]|;
    }
  }

  /** The declared members carry the underlying values 0, 1, 2, ... in
      declaration order. */
  lemma DeclaredValues()
    ensures forall i :: 0 <= i < |Engines| ==> EngineValue(Engines[i]) == i
    ensures forall i :: 0 <= i < |Providers| ==> ProviderValue(Providers[i]) == i
  {
    forall i | 0 <= i < |Engines|
      ensures EngineValue(Engines[i]) == i
    {
      assert Engines[i] !in Engines[..i];
    }
    forall i | 0 <= i < |Providers|
      ensures ProviderValue(Providers[i]) == i
    {
      assert Providers[i] !in Providers[..i];
    }
  }

  /** A fresh settings record selects Google for both searching and
      suggestions, shows the query card, and has no custom URL and no
      markdown preview. */
  lemma DefaultSettings()
    ensures Defaults().selectedEngine == Engines[0] && Defaults().selectedProvider == Providers[0]
    ensures EngineName(Defaults().selectedEngine) == "Google"
    ensures ProviderName(Defaults().selectedProvider) == "Google"
    ensures Defaults().customEngineUrl == Some("") && Text.IsNullOrWhiteSpace(Defaults().customEngineUrl)
    ensures Defaults().alwaysShowQueryCard && !Defaults().enableSerpMarkdown
  {
  }
}

=== FILE: settings_page.dfy ===
/** The settings page: five list rows that show the current settings, and the
    commands behind them that toggle a flag, cycle an enumeration or point
    the user at the settings file. */
module SettingsPage {
  import opened Outcomes
  import opened Text
  import opened Sequences
  import opened Config

  // ---- Cycling through an enumeration --------------------------------------

  /** `vals[(Array.IndexOf(vals, current) + 1) % vals.Length]`: the member
      after `x`, wrapping around; a value that is not a member has index -1
      and so moves to the first member. */
  function CycleIn<T(==)>(xs: seq<T>, x: T): (r: T)
    requires |xs| > 0
    ensures r in xs
    ensures x !in xs ==> r == xs[0]
  {
    xs[(IndexIn(xs, x) + 1) % |xs|]
  }

  /** `x` after `k` cycles. */
  function Iterate<T(==)>(xs: seq<T>, x: T, k: nat): T
    requires |xs| > 0
    decreases k
  {
    if k == 0 then x else Iterate(xs, CycleIn(xs, x), k - 1)
  }

  /** In a list without repeats, cycling moves from each position to the
      next, and from the last position back to the first. */
  lemma CycleStep<T>(xs: seq<T>, i: int)
    requires NoDuplicates(xs) && 0 <= i < |xs|
    ensures i + 1 < |xs| ==> CycleIn(xs, xs[i]) == xs[i + 1]
    ensures i + 1 == |xs| ==> CycleIn(xs, xs[i]) == xs[0]
  {
    assert xs[i] !in xs[..i] by {
      assert forall j :: 0 <= j < i ==> xs[..i][j] == xs[j];
    }
    IndexInUnique(xs, xs[i], i);
    WrapOnce(i + 1, |xs|);
  }

  /** The remainder of a number at most the divisor. */
  lemma WrapOnce(k: int, n: int)
    requires 0 <= k <= n && n > 0
    ensures k % n == if k == n then 0 else k
  {
    if k == n {
      assert k % n == 0;
    }
  }

  /** Up to the last member, `k` cycles advance `k` positions. */
  lemma {:induction false} CycleAdvance<T>(xs: seq<T>, i: int, k: nat)
    requires NoDuplicates(xs) && 0 <= i && i + k < |xs|
    ensures Iterate(xs, xs[i], k) == xs[i + k]
    decreases k
  {
    if k > 0 {
      CycleStep(xs, i);
      CycleAdvance(xs, i + 1, k - 1);
    }
  }

  /** Past the last member, cycling continues from the first: `k` cycles
      from position `i` reach position `i + k - |xs|`. */
  lemma {:induction false} CycleWrap<T>(xs: seq<T>, i: int, k: nat, j: int)
    requires NoDuplicates(xs) && 0 <= i < |xs| && 0 <= j < |xs| && i + k == |xs| + j
    ensures Iterate(xs, xs[i], k) == xs[j]
    decreases k
  {
    CycleStep(xs, i);
    if i + 1 < |xs| {
      CycleWrap(xs, i + 1, k - 1, j);
    } else {
      CycleAdvance(xs, 0, j);
    }
  }

  /** Cycling through all members returns to the start. */
  lemma CycleFullTurn<T>(xs: seq<T>, i: int)
    requires NoDuplicates(xs) && 0 <= i < |xs|
    ensures Iterate(xs, xs[i], |xs|) == xs[i]
  {
    CycleWrap(xs, i, |xs|, i);
  }

  /** Neither enumeration repeats a member. */
  lemma MembersDistinct()
    ensures NoDuplicates(Engines) && NoDuplicates(Providers)
  {
    EnumerationsAlign();
  }

  // ---- The settings the commands change ------------------------------------

  /** The two boolean settings. */
  datatype Flag = QueryCard | SerpMarkdown

  function Get(s: Settings, f: Flag): bool {
    match f
    case QueryCard => s.alwaysShowQueryCard
    case SerpMarkdown => s.enableSerpMarkdown
  }

  /** Assigning one flag leaves every other setting as it was. */
  function Set(s: Settings, f: Flag, v: bool): (r: Settings)
    ensures Get(r, f) == v
    ensures forall g :: g != f ==> Get(r, g) == Get(s, g)
    ensures r.selectedEngine == s.selectedEngine && r.selectedProvider == s.selectedProvider
    ensures r.customEngineUrl == s.customEngineUrl
  {
    match f
    case QueryCard => s.(alwaysShowQueryCard := v)
    case SerpMarkdown => s.(enableSerpMarkdown := v)
  }

  /** The commands of the five rows. The names are the ones each command is
      constructed with and shows in its toast. */
  datatype Command =
    | ToggleSetting(flag: Flag, name: string)
    | CycleEngine(name: string)
    | CycleProvider(name: string)
    | EditTextSetting(name: string)

  /** What invoking a command leaves behind: the settings, which are then
      saved, and the toast text. */
  datatype Outcome = Outcome(settings: Settings, toast: string)

  const EditToast := "Edit in settings.json – form UI TBD"

  /** `Invoke()` of each command, with the setter assigning the property the
      command's getter reads. */
  function Invoke(s: Settings, c: Command): (r: Outcome)
    ensures c.ToggleSetting? ==>
      && r.settings == Set(s, c.flag, !Get(s, c.flag))
      && r.toast == c.name + ": " + (if Get(r.settings, c.flag) then "On" else "Off")
    ensures c.CycleEngine? ==>
      && r.settings.selectedEngine == CycleIn(Engines, s.selectedEngine)
      && r.settings.selectedEngine in Engines
      && r.settings == s.(selectedEngine := r.settings.selectedEngine)
      && r.toast == "Set to " + EngineName(r.settings.selectedEngine)
    ensures c.CycleProvider? ==>
      && r.settings.selectedProvider == CycleIn(Providers, s.selectedProvider)
      && r.settings.selectedProvider in Providers
      && r.settings == s.(selectedProvider := r.settings.selectedProvider)
      && r.toast == "Set to " + ProviderName(r.settings.selectedProvider)
    ensures c.EditTextSetting? ==> r == Outcome(s, EditToast)
  {
    match c
    case ToggleSetting(f, name) =>
      var t := Set(s, f, !Get(s, f));
      Outcome(t, name + ": " + (if Get(t, f) then "On" else "Off"))
    case CycleEngine(_) =>
      var next := CycleIn(Engines, s.selectedEngine);
      Outcome(s.(selectedEngine := next), "Set to " + EngineName(next))
    case CycleProvider(_) =>
      var next := CycleIn(Providers, s.selectedProvider);
      Outcome(s.(selectedProvider := next), "Set to " + ProviderName(next))
    case EditTextSetting(_) =>
      Outcome(s, EditToast)
  }

  /** Toggling a flag twice restores the settings. */
  lemma ToggleTwice(s: Settings, f: Flag, name: string)
    ensures Invoke(Invoke(s, ToggleSetting(f, name)).settings, ToggleSetting(f, name)).settings == s
  {
  }

  /** The engine command walks the declared engines in declaration order;
      `Custom` wraps around to Google, and so does any undeclared value. */
  lemma EngineCycle(e: Engine)
    ensures forall i :: 0 <= i < 6 ==> CycleIn(Engines, Engines[i]) == Engines[i + 1]
    ensures CycleIn(Engines, SearchEngine.Custom) == SearchEngine.Google
    ensures e !in Engines ==> CycleIn(Engines, e) == SearchEngine.Google
  {
    MembersDistinct();
    forall i | 0 <= i < 6
      ensures CycleIn(Engines, Engines[i]) == Engines[i + 1]
    {
      CycleStep(Engines, i);
    }
    CycleStep(Engines, 6);
  }

  /** Seven engine cycles bring a declared engine back. */
  lemma EngineFullTurn(e: Engine)
    requires e in Engines
    ensures Iterate(Engines, e, 7) == e
  {
    MembersDistinct();
    var i :| 0 <= i < 7 && Engines[i] == e;
    CycleFullTurn(Engines, i);
  }

  /** The provider command does the same over the six providers, Ecosia
      wrapping around to Google. */
  lemma ProviderCycle(p: Provider)
    ensures forall i :: 0 <= i < 5 ==> CycleIn(Providers, Providers[i]) == Providers[i + 1]
    ensures CycleIn(Providers, SuggestionProvider.Ecosia) == SuggestionProvider.Google
    ensures p !in Providers ==> CycleIn(Providers, p) == SuggestionProvider.Google
  {
    MembersDistinct();
    forall i | 0 <= i < 5
      ensures CycleIn(Providers, Providers[i]) == Providers[i + 1]
    {
      CycleStep(Providers, i);
    }
    CycleStep(Providers, 5);
  }

  /** Six provider cycles bring a declared provider back. */
  lemma ProviderFullTurn(p: Provider)
    requires p in Providers
    ensures Iterate(Providers, p, 6) == p
  {
    MembersDistinct();
    var i :| 0 <= i < 6 && Providers[i] == p;
    CycleFullTurn(Providers, i);
  }

  // ---- The rows of the page ------------------------------------------------

  /** A list row: title, subtitle and command. */
  datatype Row = Row(title: string, subtitle: string, command: Command)

  function OnOff(b: bool): string {
    if b then "Enabled" else "Disabled"
  }

  /** The five rows of `GetItems()`, each built from the one setting it
      shows. */
  function QueryCardRow(on: bool): Row {
    Row("Always show search with \"Enter\"", OnOff(on), ToggleSetting(QueryCard, "Always show explicit search result"))
  }

  function MarkdownRow(on: bool): Row {
    Row("Show Knowledge‑Graph markdown preview (beta)", OnOff(on),
        ToggleSetting(SerpMarkdown, "Render Google Knowledge Graph as markdown"))
  }

  function EngineRow(e: Engine): Row {
    Row("Selected engine: " + EngineName(e), "", CycleEngine("Search engine"))
  }

  function ProviderRow(p: Provider): Row {
    Row("Suggestion provider: " + ProviderName(p), "", CycleProvider("Suggestion API"))
  }

  function UrlRow(url: NullableString): Row {
    Row("Custom search engine URL", if IsNullOrWhiteSpace(url) then "(not set)" else url.value,
        EditTextSetting("Custom engine base URL"))
  }

  /** `GetItems()`: the five rows for the current settings. */
  function Rows(s: Settings): (r: seq<Row>)
    ensures |r| == 5
    ensures r[0].command.ToggleSetting? && r[0].command.flag == QueryCard
    ensures r[1].command.ToggleSetting? && r[1].command.flag == SerpMarkdown
    ensures r[2].command.CycleEngine? && r[3].command.CycleProvider? && r[4].command.EditTextSetting?
  {
    [ QueryCardRow(s.alwaysShowQueryCard), MarkdownRow(s.enableSerpMarkdown), EngineRow(s.selectedEngine),
      ProviderRow(s.selectedProvider), UrlRow(s.customEngineUrl) ]
  }

  /** The two flag rows read "Enabled" exactly when their flag is set; the
      URL row reads "(not set)" for a null or blank URL and otherwise shows
      the URL itself. */
  lemma RowsShowSettings(s: Settings)
    ensures Rows(s)[0].subtitle == "Enabled" <==> s.alwaysShowQueryCard
    ensures Rows(s)[1].subtitle == "Enabled" <==> s.enableSerpMarkdown
    ensures IsNullOrWhiteSpace(s.customEngineUrl) ==> Rows(s)[4].subtitle == "(not set)"
    ensures !IsNullOrWhiteSpace(s.customEngineUrl) ==> Rows(s)[4].subtitle == s.customEngineUrl.value
  {
    assert "Disabled"[0] != "Enabled"[0];
  }

  /** Every declared member's name starts with a capital letter, which no
      decimal rendering does. */
  lemma DeclaredNamesStartWithALetter(e: SearchEngine, p: SuggestionProvider)
    ensures !e.OtherEngine? ==> 'A' <= EngineName(e)[0] <= 'Z'
    ensures !p.OtherProvider? ==> 'A' <= ProviderName(p)[0] <= 'Z'
  {
  }

  /** Different engines have different names, undeclared values included,
      so the engine row tells every engine apart. */
  lemma EngineNameInjective(a: Engine, b: Engine)
    ensures a != b ==> EngineName(a) != EngineName(b)
  {
    DeclaredNamesStartWithALetter(a, SuggestionProvider.Google);
    DeclaredNamesStartWithALetter(b, SuggestionProvider.Google);
    if a.OtherEngine? && b.OtherEngine? {
      DecimalRoundTrip(a.raw, b.raw);
    } else if a.OtherEngine? {
      DecimalRoundTrip(a.raw, a.raw);
    } else if b.OtherEngine? {
      DecimalRoundTrip(b.raw, b.raw);
    } else if a != b {
      EnumerationsAlign();
      assert a in Engines && b in Engines;
      var ia := IndexIn(Engines, a);
      var ib := IndexIn(Engines, b);
      assert ia != ib;
      if ia < ib {
        assert EngineName(Engines[ia]) != EngineName(Engines[ib]);
      } else {
        assert EngineName(Engines[ib]) != EngineName(Engines[ia]);
      }
    }
  }

  lemma ProviderNameInjective(a: Provider, b: Provider)
    ensures a != b ==> ProviderName(a) != ProviderName(b)
  {
    DeclaredNamesStartWithALetter(SearchEngine.Google, a);
    DeclaredNamesStartWithALetter(SearchEngine.Google, b);
    if a.OtherProvider? && b.OtherProvider? {
      DecimalRoundTrip(a.raw, b.raw);
    } else if a.OtherProvider? {
      DecimalRoundTrip(a.raw, a.raw);
    } else if b.OtherProvider? {
      DecimalRoundTrip(b.raw, b.raw);
    } else if a != b {
      EnumerationsAlign();
      assert a in Providers && b in Providers;
      var ia := IndexIn(Providers, a);
      var ib := IndexIn(Providers, b);
      assert ia != ib;
      assert ProviderName(a) == EngineName(Engines[ia]) && ProviderName(b) == EngineName(Engines[ib]);
      if ia < ib {
        assert EngineName(Engines[ia]) != EngineName(Engines[ib]);
      } else {
        assert EngineName(Engines[ib]) != EngineName(Engines[ia]);
      }
    }
  }

  /** Invoking a flag row's command flips that row's subtitle and leaves
      the other rows as they were. */
  lemma ToggleRowFlips(s: Settings, i: int)
    requires 0 <= i < 2
    ensures var t := Invoke(s, Rows(s)[i].command).settings;
      && Rows(t)[i].subtitle != Rows(s)[i].subtitle
      && forall j :: 0 <= j < 5 && j != i ==> Rows(t)[j] == Rows(s)[j]
  {
    var t := Invoke(s, Rows(s)[i].command).settings;
    assert OnOff(true) != OnOff(false) by { assert "Disabled"[0] != "Enabled"[0]; }
    if i == 0 {
      assert t == s.(alwaysShowQueryCard := !s.alwaysShowQueryCard);
    } else {
      assert t == s.(enableSerpMarkdown := !s.enableSerpMarkdown);
    }
  }

  /** The engine row tells engines apart. */
  lemma EngineRowTitleInjective(a: Engine, b: Engine)
    ensures a != b ==> EngineRow(a).title != EngineRow(b).title
  {
    var prefix := "Selected engine: ";
    assert EngineRow(a).title[|prefix|..] == EngineName(a);
    assert EngineRow(b).title[|prefix|..] == EngineName(b);
    EngineNameInjective(a, b);
  }

  lemma ProviderRowTitleInjective(a: Provider, b: Provider)
    ensures a != b ==> ProviderRow(a).title != ProviderRow(b).title
  {
    var prefix := "Suggestion provider: ";
    assert ProviderRow(a).title[|prefix|..] == ProviderName(a);
    assert ProviderRow(b).title[|prefix|..] == ProviderName(b);
    ProviderNameInjective(a, b);
  }

  /** Cycling always moves to another value: the enumerations have more than
      one member and no repeats. */
  lemma CycleMoves<T>(xs: seq<T>, x: T)
    requires NoDuplicates(xs) && |xs| > 1
    ensures CycleIn(xs, x) != x
  {
    if x in xs {
      var k := IndexIn(xs, x);
      CycleStep(xs, k);
      if k + 1 < |xs| {
        assert xs[k + 1] != xs[k];
      } else {
        assert xs[0] != xs[k];
      }
    }
  }

  /** Invoking the engine row's command changes that row's title, since the
      next engine differs from the current one and names tell engines apart;
      the other rows stay. */
  lemma EngineRowChanges(s: Settings)
    ensures var t := Invoke(s, Rows(s)[2].command).settings;
      && Rows(t)[2].title != Rows(s)[2].title
      && forall j :: 0 <= j < 5 && j != 2 ==> Rows(t)[j] == Rows(s)[j]
  {
    var next := CycleIn(Engines, s.selectedEngine);
    assert Invoke(s, Rows(s)[2].command).settings == s.(selectedEngine := next);
    MembersDistinct();
    CycleMoves(Engines, s.selectedEngine);
    EngineRowTitleInjective(next, s.selectedEngine);
  }

  /** The same for the provider row. */
  lemma ProviderRowChanges(s: Settings)
    ensures var t := Invoke(s, Rows(s)[3].command).settings;
      && Rows(t)[3].title != Rows(s)[3].title
      && forall j :: 0 <= j < 5 && j != 3 ==> Rows(t)[j] == Rows(s)[j]
  {
    var next := CycleIn(Providers, s.selectedProvider);
    assert Invoke(s, Rows(s)[3].command).settings == s.(selectedProvider := next);
    MembersDistinct();
    CycleMoves(Providers, s.selectedProvider);
    ProviderRowTitleInjective(next, s.selectedProvider);
  }

  // ---- The setter as the commands build it ---------------------------------

  /** The public properties of `Settings`. */
  datatype Property = EngineProperty | ProviderProperty | UrlProperty | QueryCardProperty | MarkdownProperty

  function PropertyName(p: Property): (r: string)
    ensures |r| > 5 && r[5] != '>'
  {
    match p
    case EngineProperty => "SelectedEngine"
    case ProviderProperty => "SelectedProvider"
    case UrlProperty => "CustomEngineUrl"
    case QueryCardProperty => "AlwaysShowQueryCard"
    case MarkdownProperty => "EnableSerpMarkdown"
  }

  /** `typeof(Settings).GetProperty(name)`: the public property with exactly
      that name, or null. */
  function GetProperty(name: string): (r: Option<Property>)
    ensures r.Some? ==> PropertyName(r.value) == name
  {
    if name == "SelectedEngine" then Some(EngineProperty)
    else if name == "SelectedProvider" then Some(ProviderProperty)
    else if name == "CustomEngineUrl" then Some(UrlProperty)
    else if name == "AlwaysShowQueryCard" then Some(QueryCardProperty)
    else if name == "EnableSerpMarkdown" then Some(MarkdownProperty)
    else None
  }

  /** Every property is found under its own name, so a lookup fails exactly
      for a name that no property has. */
  lemma GetPropertyFindsEveryName(p: Property, name: string)
    ensures GetProperty(PropertyName(p)) == Some(p)
    ensures GetProperty(name).None? <==> forall q :: PropertyName(q) != name
  {
    assert "SelectedEngine"[9] != "SelectedProvider"[9];
  }

  /** A value handed to `PropertyInfo.SetValue`. */
  datatype Value = BoolValue(b: bool) | EngineValue(e: Engine) | ProviderValue(p: Provider)

  /** The C# types of the reflected properties and of the values. */
  datatype PropertyType = BoolType | EngineType | ProviderType | StringType

  function TypeOfProperty(p: Property): PropertyType {
    match p
    case QueryCardProperty | MarkdownProperty => BoolType
    case EngineProperty => EngineType
    case ProviderProperty => ProviderType
    case UrlProperty => StringType
  }

  function TypeOfValue(v: Value): PropertyType {
    match v
    case BoolValue(_) => BoolType
    case EngineValue(_) => EngineType
    case ProviderValue(_) => ProviderType
  }

  /** `PropertyInfo.SetValue(s, v)`: a value of another type than the
      property's throws `ArgumentException`; a value of the property's type
      is stored in that property and in no other. */
  function SetValue(s: Settings, p: Property, v: Value): (r: Result<Settings>)
    ensures r.Err? <==> TypeOfValue(v) != TypeOfProperty(p)
    ensures r.Err? ==> r.failure == Argument
    ensures r.Ok? ==> r.value.customEngineUrl == s.customEngineUrl
    ensures r.Ok? && p == QueryCardProperty ==> r.value == s.(alwaysShowQueryCard := v.b)
    ensures r.Ok? && p == MarkdownProperty ==> r.value == s.(enableSerpMarkdown := v.b)
    ensures r.Ok? && p == EngineProperty ==> r.value == s.(selectedEngine := v.e)
    ensures r.Ok? && p == ProviderProperty ==> r.value == s.(selectedProvider := v.p)
  {
    match (p, v)
    case (QueryCardProperty, BoolValue(b)) => Ok(s.(alwaysShowQueryCard := b))
    case (MarkdownProperty, BoolValue(b)) => Ok(s.(enableSerpMarkdown := b))
    case (EngineProperty, EngineValue(e)) => Ok(s.(selectedEngine := e))
    case (ProviderProperty, ProviderValue(q)) => Ok(s.(selectedProvider := q))
    case _ => Err(Argument)
  }

  /** `typeof(Settings).GetProperty(name)!.SetValue(s, v)`: an unknown name
      gives a null `PropertyInfo`, so the call throws `NullReferenceException`. */
  function SetProperty(s: Settings, name: string, v: Value): (r: Result<Settings>)
    ensures r == Err(NullReference) <==> GetProperty(name).None?
    ensures r.Ok? ==> GetProperty(name).Some? && r.value.customEngineUrl == s.customEngineUrl
  {
    match GetProperty(name)
    case None => Err(NullReference)
    case Some(p) => SetValue(s, p, v)
  }

  /** `expr.Method.Name.Substring(4)`: the property name the setter derives
      from the name of the getter's compiled method. */
  function DerivedName(methodName: string): (r: Result<string>)
    ensures r.Err? <==> |methodName| < 4
    ensures r.Ok? ==> methodName == methodName[..4] + r.value
  {
    Substring(methodName, 4, |methodName| - 4)
  }

  /** The property a command's getter reads. */
  function Target(c: Command): Property {
    match c
    case ToggleSetting(QueryCard, _) => QueryCardProperty
    case ToggleSetting(SerpMarkdown, _) => MarkdownProperty
    case CycleEngine(_) => EngineProperty
    case CycleProvider(_) => ProviderProperty
    case EditTextSetting(_) => UrlProperty
  }

  /** `Invoke()` as written, given the name of the compiled method of the
      getter lambda: the new value is computed, then assigned through the
      property whose name the setter derives. `EditTextSetting` never calls
      its setter. */
  function InvokeAsWritten(s: Settings, c: Command, methodName: string): (r: Result<Outcome>)
    ensures c.EditTextSetting? ==> r == Ok(Invoke(s, c))
    ensures r.Ok? ==> r.value.settings.customEngineUrl == s.customEngineUrl
  {
    match c
    case EditTextSetting(_) => Ok(Invoke(s, c))
    case ToggleSetting(f, name) =>
      var property :- DerivedName(methodName);
      var t :- SetProperty(s, property, BoolValue(!Get(s, f)));
      Ok(Outcome(t, name + ": " + (if Get(t, f) then "On" else "Off")))
    case CycleEngine(_) =>
      var next := CycleIn(Engines, s.selectedEngine);
      var property :- DerivedName(methodName);
      var t :- SetProperty(s, property, EngineValue(next));
      Ok(Outcome(t, "Set to " + EngineName(next)))
    case CycleProvider(_) =>
      var next := CycleIn(Providers, s.selectedProvider);
      var property :- DerivedName(methodName);
      var t :- SetProperty(s, property, ProviderValue(next));
      Ok(Outcome(t, "Set to " + ProviderName(next)))
  }

  /** The getters are lambdas inside `GetItems`, whose compiled methods are
      named `<GetItems>b__…`. Dropping four characters leaves `Items>b__…`,
      which names no property. */
  lemma LambdaNameNamesNoProperty(methodName: string)
    requires StartsWith(methodName, "<GetItems>")
    ensures DerivedName(methodName).Ok?
    ensures GetProperty(DerivedName(methodName).value).None?
  {
    var rest := DerivedName(methodName).value;
    assert rest == methodName[4..];
    assert methodName[9] == '>' by { assert methodName[..10] == "<GetItems>"; }
    assert rest[5] == '>';
  }

  /** Hence every toggle and cycle command, as written, throws
      `NullReferenceException` and changes nothing; the getter of the first
      row compiles to `<GetItems>b__1_0`, for example. */
  lemma LambdaGetterBreaksSetter(s: Settings, c: Command, methodName: string)
    requires !c.EditTextSetting?
    requires StartsWith(methodName, "<GetItems>")
    ensures InvokeAsWritten(s, c, methodName) == Err(NullReference)
    ensures InvokeAsWritten(s, c, "<GetItems>b__1_0") == Err(NullReference)
  {
    LambdaNameNamesNoProperty(methodName);
    var example := "<GetItems>b__1_0";
    assert StartsWith(example, "<GetItems>") by { assert example[..10] == "<GetItems>"; }
    LambdaNameNamesNoProperty(example);
  }

  /** Had the getter been a property accessor, whose compiled name is
      `get_` followed by the property name, the derived setter would assign
      the property the getter reads and the command would behave as
      `Invoke` states. */
  lemma AccessorNameSetsTarget(s: Settings, c: Command)
    ensures InvokeAsWritten(s, c, "get_" + PropertyName(Target(c))) == Ok(Invoke(s, c))
  {
    var name := PropertyName(Target(c));
    assert ("get_" + name)[4..] == name;
    assert DerivedName("get_" + name) == Ok(name);
    GetPropertyFindsEveryName(Target(c), name);
    match c
    case ToggleSetting(f, _) =>
      assert SetProperty(s, name, BoolValue(!Get(s, f))) == Ok(Set(s, f, !Get(s, f)));
    case CycleEngine(_) =>
      var next := CycleIn(Engines, s.selectedEngine);
      assert SetProperty(s, name, EngineValue(next)) == Ok(s.(selectedEngine := next));
    case CycleProvider(_) =>
      var next := CycleIn(Providers, s.selectedProvider);
      assert SetProperty(s, name, ProviderValue(next)) == Ok(s.(selectedProvider := next));
    case EditTextSetting(_) =>
  }
}

=== FILE: suggestion_service.dfy ===
/** `SuggestionService`: the request URL of each suggestion provider and the
    decoder of each provider's response body. A decoder either yields the
    suggestions in order or fails with the exception the C# code throws; no
    decoder turns a malformed body into an empty list, except Google's when
    the JSONP markers are missing. */
module SuggestionService {
  import opened Outcomes
  import opened Text
  import opened Sequences
  import opened Json
  import opened Config
  import opened UriEscape
  import opened SearchEngineUrls

  /** The library calls the service depends on, as given functions. */
  datatype Platform = Platform(
    parseJson: string -> Option<Json>,   // JsonDocument.Parse; None when it throws JsonException
    htmlDecode: string -> string,        // WebUtility.HtmlDecode
    message: Failure -> string)          // Exception.Message

  /** What the HTTP GET of one URL produced. */
  datatype Response =
    | Body(text: string)        // a success status and its body
    | HttpError(message: string) // HttpRequestException
    | Canceled                  // the run's token was cancelled
    | TimedOut                  // HttpClient timeout, a TaskCanceledException

  function ParseDocument(p: Platform, text: string): (r: Result<Json>)
    ensures r.Err? <==> p.parseJson(text).None?
    ensures r.Err? ==> r.failure == JsonFormat
  {
    match p.parseJson(text)
    case None => Err(JsonFormat)
    case Some(j) => Ok(j)
  }

  // ---- Request URLs --------------------------------------------------------

  predicate IsDeclared(provider: SuggestionProvider) {
    !provider.OtherProvider?
  }

  /** The part of a provider's request URL that precedes the escaped query. */
  function Endpoint(provider: SuggestionProvider): string
    requires IsDeclared(provider)
  {
    match provider
    case Google => Https("www.google.com/complete/search?client=gws-wiz&", "q=")
    case Bing => Https("www.bingapis.com/api/v7/suggestions?appid=6D0A9B8C5100E9ECC7E11A104ADD76C10219804B&", "q=")
    case Yahoo => Https("sugg.search.yahoo.net/sg/?output=json&nresults=10", "&command=")
    case DuckDuckGo => Https("duckduckgo.com/ac/?type=json&", "q=")
    case Brave => Https("search.brave.com/api/suggest?rich=true&", "q=")
    case Ecosia => Https("ac.ecosia.org/?", "q=")
  }

  /** The URL switch at the top of `FetchAsync`. */
  function RequestUrl(provider: SuggestionProvider, query: string): (r: Result<string>)
    ensures r.Err? <==> !IsDeclared(provider)
    ensures r.Err? ==> r.failure == NotSupported
    ensures r.Ok? ==> EndsWith(r.value, EscapeDataString(query))
  {
    if IsDeclared(provider) then Ok(Endpoint(provider) + EscapeDataString(query))
    else Err(NotSupported)
  }

  /** The request URL is a fixed template, the URL for the empty query,
      followed by the escaped query. */
  lemma RequestUrlTemplate(provider: SuggestionProvider, query: string)
    requires IsDeclared(provider)
    ensures RequestUrl(provider, query).value == RequestUrl(provider, "").value + EscapeDataString(query)
  {
    assert EscapeDataString("") == "";
  }

  /** Yahoo passes the query as `command=`, every other provider as `q=`. */
  lemma EndpointParameter(provider: SuggestionProvider)
    requires IsDeclared(provider)
    ensures provider == SuggestionProvider.Yahoo ==> EndsWith(Endpoint(provider), "&command=")
    ensures provider != SuggestionProvider.Yahoo ==> EndsWith(Endpoint(provider), "q=")
  {
  }

  /** The query cannot reach outside its parameter: after the template come
      only unreserved characters and percent signs, so no `&`, `#` or `/`. */
  lemma RequestUrlConfinesQuery(provider: SuggestionProvider, query: string, k: int)
    requires IsDeclared(provider)
    requires |Endpoint(provider)| <= k < |RequestUrl(provider, query).value|
    ensures IsUnreserved(RequestUrl(provider, query).value[k]) || RequestUrl(provider, query).value[k] == '%'
  {
    var e := Endpoint(provider);
    var q := EscapeDataString(query);
    assert RequestUrl(provider, query).value[k] == q[k - |e|];
  }

  /** Different queries are sent as different requests. */
  lemma RequestUrlInjective(provider: SuggestionProvider, a: string, b: string)
    requires IsDeclared(provider)
    requires RequestUrl(provider, a) == RequestUrl(provider, b)
    ensures a == b
  {
    var e := Endpoint(provider);
    assert EscapeDataString(a) == RequestUrl(provider, a).value[|e|..];
    assert EscapeDataString(b) == RequestUrl(provider, b).value[|e|..];
    EscapeInjective(a, b);
  }

  // ---- Google ---------------------------------------------------------------

  const GooglePrefix := "window.google.ac.h("
  const GoogleSuffix := ")"

  /** The JSON text inside Google's JSONP envelope: `None` when a marker is
      missing, an `ArgumentOutOfRange` failure when the last `)` comes before
      the end of the first prefix. */
  function GoogleEnvelope(body: string): (r: Result<Option<string>>)
    ensures r == Ok(None) <==> !Contains(body, GooglePrefix) || !Contains(body, GoogleSuffix)
    ensures r.Err? <==> Contains(body, GooglePrefix) && Contains(body, GoogleSuffix)
                        && LastIndexOf(body, GoogleSuffix) < IndexOf(body, GooglePrefix) + |GooglePrefix|
    ensures r.Err? ==> r.failure == ArgumentOutOfRange
    ensures r.Ok? && r.value.Some? ==>
      var i := IndexOf(body, GooglePrefix);
      var e := LastIndexOf(body, GoogleSuffix);
      && OccursAt(body, GooglePrefix, i)
      && (forall k :: 0 <= k < i ==> !OccursAt(body, GooglePrefix, k))
      && 0 <= e < |body| && body[e] == ')'
      && (forall k :: e < k < |body| ==> body[k] != ')')
      && r.value.value == body[i + |GooglePrefix|..e]
  {
    var idx := IndexOf(body, GooglePrefix);
    var end := LastIndexOf(body, GoogleSuffix);
    if idx == -1 || end == -1 then Ok(None)
    else
      var start := idx + |GooglePrefix|;
      var json :- Substring(body, start, end - start);
      forall k | end < k < |body|
        ensures body[k] != ')'
      {
        assert !OccursAt(body, GoogleSuffix, k);
        assert body[k..k + 1] == [body[k]];
      }
      assert body[end..end + 1] == [body[end]];
      assert json == body[start..end];
      Ok(Some(json))
  }

  /** `<b>` and `</b>` removed, in that order, by two ordinal replacements. */
  function RemoveTags(s: string): (r: string)
    ensures |r| <= |s|
  {
    ReplaceWithEmpty(s, "<b>");
    ReplaceWithEmpty(Replace(s, "<b>", ""), "</b>");
    Replace(Replace(s, "<b>", ""), "</b>", "")
  }

  /** `RemoveTags` leaves a string as it is exactly when it holds neither tag. */
  lemma RemoveTagsIdentity(s: string)
    ensures RemoveTags(s) == s <==> !Contains(s, "<b>") && !Contains(s, "</b>")
  {
    var a := Replace(s, "<b>", "");
    ReplaceWithEmpty(s, "<b>");
    ReplaceWithEmpty(a, "</b>");
    if RemoveTags(s) == s {
      ReplaceLengthEqual(s, "<b>");
    }
  }

  /** The output need not be free of tags: removing an inner `<b>` can join
      the text around it into a new one. */
  lemma RemoveTagsCanFormTag()
    ensures RemoveTags("<<b>b>") == "<b>"
  {
    assert StartsWith("<<b>b>"[1..], "<b>");
    assert Replace("<<b>b>", "<b>", "") == "<b>" by {
      assert "<<b>b>"[..3][1] != "<b>"[1];
      assert "<<b>b>"[1..] == "<b>b>";
      assert "<b>b>"[3..] == "b>";
      assert !StartsWith("b>", "<b>");
      assert "b>"[1..] == ">";
      assert !StartsWith(">", "<b>");
      assert ">"[1..] == "";
    }
    assert !StartsWith("<b>", "</b>");
    assert "<b>"[1..] == "b>";
    assert !StartsWith("b>", "</b>");
    assert "b>"[1..] == ">";
    assert !StartsWith(">", "</b>");
    assert ">"[1..] == "";
  }

  /** One row of Google's result array: its first element, stripped of bold
      tags and HTML-decoded. A null text fails in `Replace`. */
  function GoogleSuggestion(p: Platform, row: Json): (r: Result<NullableString>)
    ensures r.Ok? ==> r.value.Some?
    ensures r.Ok? <==> At(row, 0).Ok? && At(row, 0).value.JString?
    ensures r.Ok? ==> r.value.value == p.htmlDecode(RemoveTags(At(row, 0).value.s))
  {
    var head :- At(row, 0);
    var text :- GetString(head);
    if text.None? then Err(NullReference) else Ok(Some(p.htmlDecode(RemoveTags(text.value))))
  }

  /** `GoogleParser.Parse`. */
  function ParseGoogle(p: Platform, body: string): (r: Result<seq<NullableString>>)
    ensures GoogleEnvelope(body) == Ok(None) ==> r == Ok([])
    ensures GoogleEnvelope(body).Err? ==> r == Err(ArgumentOutOfRange)
    ensures GoogleEnvelope(body).Ok? && GoogleEnvelope(body).value.Some? ==>
      var json := GoogleEnvelope(body).value.value;
      && (p.parseJson(json).None? ==> r == Err(JsonFormat))
      && (r.Ok? <==>
            && p.parseJson(json).Some?
            && At(p.parseJson(json).value, 0).Ok?
            && At(p.parseJson(json).value, 0).value.JArray?
            && var rows := At(p.parseJson(json).value, 0).value.elements;
               forall i :: 0 <= i < |rows| ==> GoogleSuggestion(p, rows[i]).Ok?)
    ensures r.Ok? ==> NoDuplicates(r.value) && forall i :: 0 <= i < |r.value| ==> r.value[i].Some?
  {
    var envelope :- GoogleEnvelope(body);
    if envelope.None? then Ok([])
    else
      var doc :- ParseDocument(p, envelope.value);
      var first :- At(doc, 0);
      var rows :- Elements(first);
      var texts :- MapAll(rows, row => GoogleSuggestion(p, row));
      Ok(Distinct(texts))
  }

  /** Google's output holds, without repeats and in first-seen order, exactly
      the decoded texts of the rows of the document's first element. */
  lemma GoogleOutput(p: Platform, body: string, json: string, rows: seq<Json>)
    requires GoogleEnvelope(body) == Ok(Some(json))
    requires p.parseJson(json).Some? && At(p.parseJson(json).value, 0) == Ok(JArray(rows))
    requires forall i :: 0 <= i < |rows| ==> GoogleSuggestion(p, rows[i]).Ok?
    ensures ParseGoogle(p, body).Ok?
    ensures var texts := seq(|rows|, i requires 0 <= i < |rows| => GoogleSuggestion(p, rows[i]).value);
      && ParseGoogle(p, body).value == Distinct(texts)
      && (forall i, j :: 0 <= i < j < |ParseGoogle(p, body).value| ==>
            IndexIn(texts, ParseGoogle(p, body).value[i]) < IndexIn(texts, ParseGoogle(p, body).value[j]))
  {
    var texts := seq(|rows|, i requires 0 <= i < |rows| => GoogleSuggestion(p, rows[i]).value);
    var mapped := MapAll(rows, row => GoogleSuggestion(p, row));
    assert mapped.Ok? && mapped.value == texts;
    DistinctKeepsFirstOccurrenceOrder(texts);
  }

  // ---- The providers whose body is plain JSON -------------------------------

  /** The providers decoded by walking a fixed path to an array. */
  predicate WalksPath(provider: SuggestionProvider) {
    IsDeclared(provider) && !provider.Google?
  }

  /** The path from the root of each provider's document to its suggestion
      array. */
  function ArrayPath(provider: SuggestionProvider): seq<Step>
    requires WalksPath(provider)
  {
    match provider
    case Bing => [Key("suggestionGroups"), Index(0), Key("searchSuggestions")]
    case Yahoo => [Key("gossip"), Key("results")]
    case DuckDuckGo => []
    case Brave => [Index(1)]
    case Ecosia => [Key("suggestions")]
  }

  /** The path from an array element to its suggestion text, for every
      provider but Brave, which tries two names. */
  function TextPath(provider: SuggestionProvider): seq<Step>
    requires WalksPath(provider) && !provider.Brave?
  {
    match provider
    case Bing => [Key("displayText")]
    case Yahoo => [Key("key")]
    case DuckDuckGo => [Key("phrase")]
    case Ecosia => []
  }

  /** Where each provider keeps its suggestion array: the elements of the
      array at the end of its path, or the first exception on the way. */
  function SuggestionArray(provider: SuggestionProvider, doc: Json): (r: Result<seq<Json>>)
    requires WalksPath(provider)
    ensures Walk(doc, ArrayPath(provider)).Err? ==> r == Err(Walk(doc, ArrayPath(provider)).failure)
    ensures Walk(doc, ArrayPath(provider)).Ok? ==> r == Elements(Walk(doc, ArrayPath(provider)).value)
  {
    match provider
    case Bing =>
      WalkCons(doc, Key("suggestionGroups"), [Index(0), Key("searchSuggestions")]);
      var groups :- Property(doc, "suggestionGroups");
      WalkCons(groups, Index(0), [Key("searchSuggestions")]);
      var group :- At(groups, 0);
      var items :- Property(group, "searchSuggestions");
      Elements(items)
    case Yahoo =>
      WalkCons(doc, Key("gossip"), [Key("results")]);
      var gossip :- Property(doc, "gossip");
      var results :- Property(gossip, "results");
      Elements(results)
    case DuckDuckGo =>
      Elements(doc)
    case Brave =>
      var second :- At(doc, 1);
      Elements(second)
    case Ecosia =>
      var items :- Property(doc, "suggestions");
      Elements(items)
  }

  /** The string each provider takes from one array element: the string at
      the end of its path, except that Brave reads `name` when the element
      has it and `q` otherwise. */
  function SuggestionText(provider: SuggestionProvider, item: Json): (r: Result<NullableString>)
    requires WalksPath(provider)
    ensures !provider.Brave? && Walk(item, TextPath(provider)).Err? ==>
      r == Err(Walk(item, TextPath(provider)).failure)
    ensures !provider.Brave? && Walk(item, TextPath(provider)).Ok? ==>
      r == GetString(Walk(item, TextPath(provider)).value)
    ensures provider.Brave? && !item.JObject? ==> r == Err(InvalidOperation)
    ensures provider.Brave? && Property(item, "name").Ok? ==> r == GetString(Property(item, "name").value)
    ensures provider.Brave? && item.JObject? && Property(item, "name").Err? ==>
      r == (if Property(item, "q").Ok? then GetString(Property(item, "q").value) else Err(KeyNotFound("q")))
  {
    match provider
    case Bing =>
      var text :- Property(item, "displayText");
      GetString(text)
    case Yahoo =>
      var key :- Property(item, "key");
      GetString(key)
    case DuckDuckGo =>
      var phrase :- Property(item, "phrase");
      GetString(phrase)
    case Brave =>
      var name :- TryProperty(item, "name");
      if name.Some? then GetString(name.value)
      else
        var q :- Property(item, "q");
        GetString(q)
    case Ecosia =>
      GetString(item)
  }

  /** `BingParser`, `YahooParser`, `DuckParser`, `BraveParser` and
      `EcosiaParser`: parse, walk to the array, and take one string per
      element, in order, without de-duplication. */
  function ParsePath(p: Platform, provider: SuggestionProvider, body: string): (r: Result<seq<NullableString>>)
    requires WalksPath(provider)
    ensures p.parseJson(body).None? ==> r == Err(JsonFormat)
    ensures r.Ok? <==>
      && p.parseJson(body).Some?
      && SuggestionArray(provider, p.parseJson(body).value).Ok?
      && var items := SuggestionArray(provider, p.parseJson(body).value).value;
         forall i :: 0 <= i < |items| ==> SuggestionText(provider, items[i]).Ok?
    ensures r.Ok? ==>
      var items := SuggestionArray(provider, p.parseJson(body).value).value;
      && |r.value| == |items|
      && forall i :: 0 <= i < |items| ==> r.value[i] == SuggestionText(provider, items[i]).value
  {
    var doc :- ParseDocument(p, body);
    var items :- SuggestionArray(provider, doc);
    MapAll(items, item => SuggestionText(provider, item))
  }

  /** The parser dispatch of `FetchAsync`. */
  function Decode(p: Platform, provider: SuggestionProvider, body: string): (r: Result<seq<NullableString>>)
    ensures !IsDeclared(provider) ==> r == Ok([])
  {
    if provider.Google? then ParseGoogle(p, body)
    else if WalksPath(provider) then ParsePath(p, provider, body)
    else Ok([])
  }

  /** No decoder is total: a body that is not JSON is an error for every
      provider, Google included once its envelope is present. */
  lemma InvalidJsonIsAnError(p: Platform, provider: SuggestionProvider, body: string)
    requires IsDeclared(provider)
    ensures !provider.Google? && p.parseJson(body).None? ==> Decode(p, provider, body) == Err(JsonFormat)
    ensures provider.Google? && GoogleEnvelope(body).Ok? && GoogleEnvelope(body).value.Some?
            && p.parseJson(GoogleEnvelope(body).value.value).None? ==>
      Decode(p, provider, body) == Err(JsonFormat)
  {
  }

  /** A Google document of the wrong shape is an error, never an empty
      list: a root without a first element, a first element that is not an
      array, or a row whose first element is not a string. */
  lemma GoogleWrongShapeIsAnError(p: Platform, body: string, json: string, doc: Json)
    requires GoogleEnvelope(body) == Ok(Some(json)) && p.parseJson(json) == Some(doc)
    ensures At(doc, 0).Err? ==> ParseGoogle(p, body) == Err(At(doc, 0).failure)
    ensures At(doc, 0).Ok? && !At(doc, 0).value.JArray? ==> ParseGoogle(p, body) == Err(InvalidOperation)
    ensures At(doc, 0).Ok? && At(doc, 0).value.JArray? &&
            (exists i :: 0 <= i < |At(doc, 0).value.elements| && GoogleSuggestion(p, At(doc, 0).value.elements[i]).Err?) ==>
      ParseGoogle(p, body).Err?
  {
  }

  /** For example, the empty object `{}` is an error for every provider. */
  lemma WrongShapeIsAnError(p: Platform, body: string)
    requires p.parseJson(body) == Some(JObject([]))
    requires p.parseJson("{}") == Some(JObject([]))
    ensures Decode(p, SuggestionProvider.Bing, body) == Err(KeyNotFound("suggestionGroups"))
    ensures Decode(p, SuggestionProvider.Yahoo, body) == Err(KeyNotFound("gossip"))
    ensures Decode(p, SuggestionProvider.DuckDuckGo, body) == Err(InvalidOperation)
    ensures Decode(p, SuggestionProvider.Brave, body) == Err(InvalidOperation)
    ensures Decode(p, SuggestionProvider.Ecosia, body) == Err(KeyNotFound("suggestions"))
    ensures Decode(p, SuggestionProvider.Google, GooglePrefix + "{}" + GoogleSuffix) == Err(InvalidOperation)
  {
    var b := GooglePrefix + "{}" + GoogleSuffix;
    assert OccursAt(b, GooglePrefix, 0);
    assert OccursAt(b, GoogleSuffix, |b| - 1);
    assert b[|GooglePrefix|..|b| - 1] == "{}";
    GoogleWrongShapeIsAnError(p, b, "{}", JObject([]));
  }

  /** The path decoders keep repeated suggestions and pass a JSON null
      through as a null string. */
  lemma PathDecodersKeepEverything(p: Platform, body: string)
    requires p.parseJson(body) == Some(JObject([Member("suggestions", JArray([JString("cat"), JString("cat"), JNull]))]))
    ensures Decode(p, SuggestionProvider.Ecosia, body) == Ok([Some("cat"), Some("cat"), None])
  {
    var items := [JString("cat"), JString("cat"), JNull];
    assert SuggestionArray(SuggestionProvider.Ecosia, p.parseJson(body).value) == Ok(items);
    assert forall i :: 0 <= i < |items| ==> SuggestionText(SuggestionProvider.Ecosia, items[i]).Ok?;
    var r := Decode(p, SuggestionProvider.Ecosia, body);
    assert r.Ok? && |r.value| == 3;
    assert r.value[0] == Some("cat") && r.value[1] == Some("cat") && r.value[2] == None;
    assert r.value == [Some("cat"), Some("cat"), None];
  }

  /** Google strips bold tags before de-duplicating, so rows that differ only
      in markup (see `RemoveBoldTags`) collapse into one suggestion. */
  lemma GoogleMergesMarkupVariants(p: Platform, body: string, json: string, a: string, b: string)
    requires GoogleEnvelope(body) == Ok(Some(json))
    requires p.parseJson(json) == Some(JArray([JArray([JArray([JString(a)]), JArray([JString(b)])])]))
    requires RemoveTags(a) == RemoveTags(b)
    ensures ParseGoogle(p, body) == Ok([Some(p.htmlDecode(RemoveTags(b)))])
  {
    var rows := [JArray([JString(a)]), JArray([JString(b)])];
    var t := Some(p.htmlDecode(RemoveTags(b)));
    GoogleRowOfText(p, a);
    GoogleRowOfText(p, b);
    GoogleOutput(p, body, json, rows);
    var texts := seq(|rows|, i requires 0 <= i < |rows| => GoogleSuggestion(p, rows[i]).value);
    assert texts == [t, t];
    DistinctOfRepeat(t);
  }

  /** A row holding just a string yields that string, decoded. */
  lemma GoogleRowOfText(p: Platform, a: string)
    ensures GoogleSuggestion(p, JArray([JString(a)])) == Ok(Some(p.htmlDecode(RemoveTags(a))))
  {
    assert At(JArray([JString(a)]), 0) == Ok(JString(a));
  }

  lemma DistinctOfRepeat<T>(t: T)
    ensures Distinct([t, t]) == [t]
  {
    assert [t, t][..1] == [t];
    assert Distinct([t]) == [t] by { assert [t][..0] == []; }
  }

  /** Both markup variants of `cats` lose their tags. */
  lemma RemoveBoldTags()
    ensures RemoveTags("<b>cat</b>s") == "cats"
    ensures RemoveTags("cats") == "cats"
  {
    DropOpeningTag("<b>cat</b>s");
    DropClosingTag("cat</b>s");
    KeepPlain("cats", "<b>");
    KeepPlain("cats", "</b>");
  }

  lemma DropOpeningTag(a: string)
    requires a == "<b>cat</b>s"
    ensures Replace(a, "<b>", "") == "cat</b>s"
  {
    var t := a[3..];
    assert StartsWith(a, "<b>") && t == "cat</b>s";
    KeepUnpaired(t, "<b>");
  }

  lemma DropClosingTag(a: string)
    requires a == "cat</b>s"
    ensures Replace(a, "</b>", "") == "cats"
  {
    CopyFirst(a, "</b>");
    CopyFirst(a[1..], "</b>");
    CopyFirst(a[2..], "</b>");
    var u := a[3..];
    assert a[1..][1..] == a[2..] && a[2..][1..] == u && u == "</b>s";
    assert StartsWith(u, "</b>");
    KeepPlain(u[4..], "</b>");
  }

  /** A string without the first character of `oldValue` is kept whole. */
  lemma KeepPlain(s: string, oldValue: string)
    requires |oldValue| > 0
    requires forall k :: 0 <= k < |s| ==> s[k] != oldValue[0]
    ensures Replace(s, oldValue, "") == s
  {
  }

  /** A string where the first two characters of `oldValue` never stand side
      by side is kept whole. */
  lemma KeepUnpaired(s: string, oldValue: string)
    requires |oldValue| >= 2
    requires forall k :: 0 <= k < |s| - 1 ==> s[k] != oldValue[0] || s[k + 1] != oldValue[1]
    ensures Replace(s, oldValue, "") == s
  {
  }

  /** A first character that does not start `oldValue` is copied. */
  lemma CopyFirst(s: string, oldValue: string)
    requires |oldValue| > 0 && |s| > 0 && s[0] != oldValue[0]
    ensures Replace(s, oldValue, "") == [s[0]] + Replace(s[1..], oldValue, "")
  {
    assert !StartsWith(s, oldValue) by {
      if |oldValue| <= |s| { assert s[..|oldValue|][0] == s[0]; }
    }
  }

  /** Brave reads the second element of the root array. */
  lemma BraveReadsIndexOne(doc: Json)
    ensures !doc.JArray? ==> SuggestionArray(SuggestionProvider.Brave, doc) == Err(InvalidOperation)
    ensures doc.JArray? && |doc.elements| < 2 ==> SuggestionArray(SuggestionProvider.Brave, doc) == Err(IndexOutOfRange(1))
    ensures doc.JArray? && |doc.elements| >= 2 ==> SuggestionArray(SuggestionProvider.Brave, doc) == Elements(doc.elements[1])
  {
  }

  /** Brave takes `name` whenever the property exists, even when it is null
      and `q` is present; `q` only when `name` is absent. */
  lemma BravePrefersName(item: Json)
    requires item.JObject?
    ensures LastValue(item.members, "name").Some? ==>
      SuggestionText(SuggestionProvider.Brave, item) == GetString(LastValue(item.members, "name").value)
    ensures LastValue(item.members, "name").None? ==>
      SuggestionText(SuggestionProvider.Brave, item) ==
        (match Property(item, "q") case Ok(q) => GetString(q) case Err(f) => Err(f))
    ensures item == JObject([Member("name", JNull), Member("q", JString("cat"))]) ==>
      SuggestionText(SuggestionProvider.Brave, item) == Ok(None)
  {
  }

  /** The outcome of the GET as the caller of `GetStringAsync` sees it. */
  function Receive(response: Response): (r: Result<string>)
    ensures r.Ok? <==> response.Body?
    ensures response.HttpError? ==> r == Err(HttpRequest(response.message))
    ensures response.Canceled? || response.TimedOut? ==> r == Err(OperationCanceled)
  {
    match response
    case Body(text) => Ok(text)
    case HttpError(message) => Err(HttpRequest(message))
    case Canceled => Err(OperationCanceled)
    case TimedOut => Err(OperationCanceled)
  }

  /** `SuggestionService.FetchAsync(query, provider, token)`, with the network
      given as the response to each URL. */
  function Fetch(p: Platform, query: string, provider: SuggestionProvider, network: string -> Response): (r: Result<seq<NullableString>>)
    ensures !IsDeclared(provider) ==> r == Err(NotSupported)
    ensures IsDeclared(provider) && !network(RequestUrl(provider, query).value).Body? ==>
      r == Receive(network(RequestUrl(provider, query).value)).PropagateFailure()
    ensures IsDeclared(provider) && network(RequestUrl(provider, query).value).Body? ==>
      r == Decode(p, provider, network(RequestUrl(provider, query).value).text)
  {
    var url :- RequestUrl(provider, query);
    var body :- Receive(network(url));
    Decode(p, provider, body)
  }
}

=== FILE: text.dfy ===
/** The ordinal string operations of .NET that the modelled code relies on:
    `char.IsWhiteSpace`, `string.IsNullOrWhiteSpace`, `IndexOf`/`LastIndexOf`
    with `StringComparison.Ordinal`, `Replace`, and the decimal rendering of an
    integer. Strings are sequences of Unicode scalar values. */
module Text {
  import opened Outcomes

  /** The Unicode general categories Zs, Zl and Zp. */
  datatype Separator = SpaceSeparator | LineSeparator | ParagraphSeparator

  /** The separator category of `c`, for the characters that have one
      (Unicode 15). */
  function SeparatorOf(c: char): Option<Separator> {
    if c == ' ' || c == '\U{00A0}' || c == '\U{1680}' || ('\U{2000}' <= c <= '\U{200A}')
       || c == '\U{202F}' || c == '\U{205F}' || c == '\U{3000}' then Some(SpaceSeparator)
    else if c == '\U{2028}' then Some(LineSeparator)
    else if c == '\U{2029}' then Some(ParagraphSeparator)
    else None
  }

  /** The white space of the Latin-1 range: the space, U+0009..U+000D, U+0085
      and U+00A0. */
  predicate IsLatin1WhiteSpace(c: char) {
    c == ' ' || ('\t' <= c <= '\r') || c == '\U{0085}' || c == '\U{00A0}'
  }

  /** `char.IsWhiteSpace`, written as the list of its characters. The
      contract reads the same list the way .NET decides it: a Latin-1
      character by its own short list, any other by whether its Unicode
      general category is Zs, Zl or Zp (`SeparatorOf`). */
  predicate IsWhiteSpace(c: char)
    ensures IsWhiteSpace(c) <==> if c <= '\U{00FF}' then IsLatin1WhiteSpace(c) else SeparatorOf(c).Some?
  {
    || ('\t' <= c <= '\r')
    || c == ' '
    || c == '\U{0085}'
    || c == '\U{00A0}'
    || c == '\U{1680}'
    || ('\U{2000}' <= c <= '\U{200A}')
    || c == '\U{2028}'
    || c == '\U{2029}'
    || c == '\U{202F}'
    || c == '\U{205F}'
    || c == '\U{3000}'
  }

  /** Empty or made only of white space. */
  predicate IsBlank(s: string) {
    forall i :: 0 <= i < |s| ==> IsWhiteSpace(s[i])
  }

  /** `s.TrimStart()`: `s` without its leading white space. */
  function TrimStart(s: string): (r: string)
    ensures |r| <= |s| && r == s[|s| - |r|..]
    ensures |r| > 0 ==> !IsWhiteSpace(r[0])
  {
    if |s| > 0 && IsWhiteSpace(s[0]) then TrimStart(s[1..]) else s
  }

  /** A string is blank exactly when trimming leaves nothing. */
  lemma {:induction false} TrimStartBlank(s: string)
    ensures |TrimStart(s)| == 0 <==> IsBlank(s)
  {
    if |s| > 0 && IsWhiteSpace(s[0]) {
      TrimStartBlank(s[1..]);
      assert IsBlank(s) <==> IsBlank(s[1..]) by {
        if IsBlank(s[1..]) {
          forall i | 0 <= i < |s| ensures IsWhiteSpace(s[i]) {
            if i > 0 { assert s[i] == s[1..][i - 1]; }
          }
        }
      }
    }
  }

  /** `string.IsNullOrWhiteSpace`. */
  predicate IsNullOrWhiteSpace(s: NullableString) {
    s.None? || IsBlank(s.value)
  }

  /** `string.IsNullOrWhiteSpace(s)` is `s == null || s.TrimStart().Length == 0`. */
  lemma NullOrWhiteSpaceTrims(s: NullableString)
    ensures IsNullOrWhiteSpace(s) <==> s.None? || |TrimStart(s.value)| == 0
  {
    if s.Some? {
      TrimStartBlank(s.value);
    }
  }

  /** `pat` occurs in `s` starting at index `i`. */
  predicate OccursAt(s: string, pat: string, i: int) {
    0 <= i && i + |pat| <= |s| && s[i..i + |pat|] == pat
  }

  predicate Contains(s: string, pat: string) {
    exists i :: 0 <= i <= |s| && OccursAt(s, pat, i)
  }

  predicate StartsWith(s: string, pat: string) {
    |pat| <= |s| && s[..|pat|] == pat
  }

  predicate EndsWith(s: string, pat: string) {
    |pat| <= |s| && s[|s| - |pat|..] == pat
  }

  /** The first index at or after `from` where `pat` occurs, or -1. */
  function IndexFrom(s: string, pat: string, from: nat): (r: int)
    requires |pat| > 0
    ensures r == -1 || (from <= r && OccursAt(s, pat, r))
    ensures r == -1 ==> forall i :: from <= i ==> !OccursAt(s, pat, i)
    ensures r != -1 ==> forall i :: from <= i < r ==> !OccursAt(s, pat, i)
    decreases |s| - from
  {
    if from + |pat| > |s| then -1
    else if s[from..from + |pat|] == pat then from
    else IndexFrom(s, pat, from + 1)
  }

  /** `s.IndexOf(pat, StringComparison.Ordinal)` for a non-empty `pat`. */
  function IndexOf(s: string, pat: string): (r: int)
    requires |pat| > 0
    ensures r == -1 <==> !Contains(s, pat)
    ensures r != -1 ==> OccursAt(s, pat, r) && forall i :: 0 <= i < r ==> !OccursAt(s, pat, i)
  {
    IndexFrom(s, pat, 0)
  }

  /** The last index strictly below `upTo` where `pat` occurs, or -1. */
  function LastIndexBelow(s: string, pat: string, upTo: nat): (r: int)
    requires |pat| > 0
    ensures r == -1 || (r < upTo && OccursAt(s, pat, r))
    ensures r == -1 ==> forall i :: i < upTo ==> !OccursAt(s, pat, i)
    ensures r != -1 ==> forall i :: r < i < upTo ==> !OccursAt(s, pat, i)
  {
    if upTo == 0 then -1
    else if OccursAt(s, pat, upTo - 1) then upTo - 1
    else LastIndexBelow(s, pat, upTo - 1)
  }

  /** `s.LastIndexOf(pat, StringComparison.Ordinal)` for a non-empty `pat`. */
  function LastIndexOf(s: string, pat: string): (r: int)
    requires |pat| > 0
    ensures r == -1 <==> !Contains(s, pat)
    ensures r != -1 ==> OccursAt(s, pat, r) && forall i :: r < i ==> !OccursAt(s, pat, i)
  {
    LastIndexBelow(s, pat, |s|)
  }

  /** `s.Substring(start, length)`. */
  function Substring(s: string, start: int, length: int): (r: Result<string>)
    ensures r.Ok? <==> 0 <= start && 0 <= length && start + length <= |s|
    ensures r.Err? ==> r.failure == ArgumentOutOfRange
    ensures r.Ok? ==> |r.value| == length && forall k :: 0 <= k < length ==> r.value[k] == s[start + k]
  {
    if 0 <= start && 0 <= length && start + length <= |s| then Ok(s[start..start + length])
    else Err(ArgumentOutOfRange)
  }

  /** `s.Replace(oldValue, newValue)`: an ordinal left-to-right scan that replaces every
      non-overlapping occurrence of `oldValue`. */
  function Replace(s: string, oldValue: string, newValue: string): (r: string)
    requires |oldValue| > 0
    ensures !Contains(s, oldValue) ==> r == s
    ensures |newValue| <= |oldValue| ==> |r| <= |s|
    decreases |s|
  {
    if |s| == 0 then ""
    else if StartsWith(s, oldValue) then
      assert OccursAt(s, oldValue, 0);
      newValue + Replace(s[|oldValue|..], oldValue, newValue)
    else
      assert !OccursAt(s, oldValue, 0);
      ContainsTail(s, oldValue);
      [s[0]] + Replace(s[1..], oldValue, newValue)
  }

  /** Replacing with the empty string never lengthens, and leaves `s`
      unchanged exactly when `oldValue` does not occur in it. */
  lemma {:induction false} ReplaceWithEmpty(s: string, oldValue: string)
    requires |oldValue| > 0
    ensures |Replace(s, oldValue, "")| <= |s|
    ensures Replace(s, oldValue, "") == s <==> !Contains(s, oldValue)
    decreases |s|
  {
    if |s| == 0 {
      assert !Contains(s, oldValue);
    } else if StartsWith(s, oldValue) {
      assert OccursAt(s, oldValue, 0);
    } else {
      ReplaceWithEmpty(s[1..], oldValue);
      assert !OccursAt(s, oldValue, 0);
      ContainsTail(s, oldValue);
      assert Replace(s, oldValue, "") == [s[0]] + Replace(s[1..], oldValue, "");
      if Replace(s[1..], oldValue, "") == s[1..] {
        assert s == [s[0]] + s[1..];
      } else {
        assert |Replace(s[1..], oldValue, "")| < |s[1..]| by {
          ReplaceWithEmpty(s[1..], oldValue);
          if |Replace(s[1..], oldValue, "")| == |s[1..]| {
            ReplaceLengthEqual(s[1..], oldValue);
          }
        }
      }
    }
  }

  /** When `oldValue` does not occur at index 0, `s` contains it exactly when its
      tail does. */
  lemma ContainsTail(s: string, oldValue: string)
    requires |s| > 0 && |oldValue| > 0
    requires !OccursAt(s, oldValue, 0)
    ensures Contains(s, oldValue) <==> Contains(s[1..], oldValue)
  {
    if Contains(s, oldValue) {
      var i :| 0 <= i <= |s| && OccursAt(s, oldValue, i);
      assert i > 0;
      assert s[1..][i - 1..i - 1 + |oldValue|] == s[i..i + |oldValue|];
      assert OccursAt(s[1..], oldValue, i - 1);
    }
    if Contains(s[1..], oldValue) {
      var t := s[1..];
      var j :| 0 <= j <= |t| && OccursAt(t, oldValue, j);
      assert t[j..j + |oldValue|] == s[j + 1..j + 1 + |oldValue|];
      assert OccursAt(s, oldValue, j + 1);
    }
  }

  /** Removing occurrences that keeps the length removes nothing. */
  lemma {:induction false} ReplaceLengthEqual(s: string, oldValue: string)
    requires |oldValue| > 0
    requires |Replace(s, oldValue, "")| == |s|
    ensures Replace(s, oldValue, "") == s
    decreases |s|
  {
    if |s| == 0 {
    } else if StartsWith(s, oldValue) {
    } else {
      ReplaceLengthEqual(s[1..], oldValue);
      assert s == [s[0]] + s[1..];
    }
  }

  function DigitChar(d: int): (c: char)
    requires 0 <= d < 10
    ensures '0' <= c <= '9'
  {
    "0123456789"[d]
  }

  /** The decimal digits of a natural number, without leading zeros. */
  function Digits(n: nat): (r: string)
    ensures |r| > 0
    ensures forall i :: 0 <= i < |r| ==> '0' <= r[i] <= '9'
    ensures |r| > 1 ==> r[0] != '0'
  {
    if n < 10 then [DigitChar(n)] else Digits(n / 10) + [DigitChar(n % 10)]
  }

  /** The number denoted by a string of decimal digits. */
  function DigitsValue(s: string): nat
    requires forall i :: 0 <= i < |s| ==> '0' <= s[i] <= '9'
  {
    if |s| == 0 then 0
    else 10 * DigitsValue(s[..|s| - 1]) + (s[|s| - 1] as int - '0' as int)
  }

  /** `Int32.ToString()` in the invariant culture: an optional minus sign
      followed by the decimal digits. */
  function Decimal(n: int): (r: string)
    ensures |r| > 0
    ensures n < 0 <==> r[0] == '-'
  {
    if n < 0 then "-" + Digits(-n) else Digits(n)
  }

  /** Reading back the digits of `n` gives `n`. */
  lemma {:induction false} DigitsRoundTrip(n: nat)
    ensures DigitsValue(Digits(n)) == n
  {
    if n >= 10 {
      var d := Digits(n / 10);
      DigitsRoundTrip(n / 10);
      assert (d + [DigitChar(n % 10)])[..|d|] == d;
    }
  }

  /** The integer an optional minus sign and decimal digits denote. */
  function DecimalValue(r: string): int
    requires |r| > 0
    requires forall i :: 0 < i < |r| ==> '0' <= r[i] <= '9'
    requires r[0] == '-' || '0' <= r[0] <= '9'
  {
    if r[0] == '-' then -(DigitsValue(r[1..]) as int) else DigitsValue(r)
  }

  /** The rendering of an integer reads back as that integer, so different
      integers render differently. */
  lemma DecimalRoundTrip(n: int, m: int)
    ensures forall i :: 0 < i < |Decimal(n)| ==> '0' <= Decimal(n)[i] <= '9'
    ensures Decimal(n)[0] == '-' || '0' <= Decimal(n)[0] <= '9'
    ensures DecimalValue(Decimal(n)) == n
    ensures Decimal(n) == Decimal(m) ==> n == m
  {
    DigitsRoundTrip(if n < 0 then -n else n);
    DigitsRoundTrip(if m < 0 then -m else m);
    if n < 0 {
      assert Decimal(n)[1..] == Digits(-n);
    }
    if m < 0 {
      assert Decimal(m)[1..] == Digits(-m);
    }
  }
}

=== FILE: uri_escape.dfy ===
/** `Uri.EscapeDataString`: percent-encoding of a string as section 2.1 of
    RFC 3986 describes it, applied to the UTF-8 encoding (RFC 3629) of every
    character outside the unreserved set of section 2.3. The inverse,
    `Unescape`, is defined here only to state that escaping loses nothing. */
module UriEscape {
  import opened Outcomes

  type Byte = b: int | 0 <= b < 256

  /** Section 2.3 of RFC 3986: ALPHA / DIGIT / "-" / "." / "_" / "~". */
  predicate IsUnreserved(c: char) {
    || ('A' <= c <= 'Z')
    || ('a' <= c <= 'z')
    || ('0' <= c <= '9')
    || c == '-' || c == '.' || c == '_' || c == '~'
  }

  /** The UTF-8 encoding of one Unicode scalar value. */
  function Utf8(c: char): (r: seq<Byte>)
    ensures 1 <= |r| <= 4
    ensures |r| == 1 <==> c as int < 0x80
  {
    var n := c as int;
    if n < 0x80 then [n]
    else if n < 0x800 then [0xC0 + n / 0x40, 0x80 + n % 0x40]
    else if n < 0x1_0000 then [0xE0 + n / 0x1000, 0x80 + (n / 0x40) % 0x40, 0x80 + n % 0x40]
    else [0xF0 + n / 0x4_0000, 0x80 + (n / 0x1000) % 0x40, 0x80 + (n / 0x40) % 0x40, 0x80 + n % 0x40]
  }

  /** The UTF-8 encoding of a whole string. */
  function Utf8Encode(s: string): seq<Byte> {
    if |s| == 0 then [] else Utf8(s[0]) + Utf8Encode(s[1..])
  }

  /** An upper-case hexadecimal digit, as section 2.1 recommends. */
  function HexDigit(d: int): (c: char)
    requires 0 <= d < 16
    ensures IsUnreserved(c)
  {
    "0123456789ABCDEF"[d]
  }

  /** The percent-encoded triplet "%" HEXDIG HEXDIG of one octet. */
  function Triplet(b: Byte): (r: string)
    ensures |r| == 3 && r[0] == '%'
  {
    ['%', HexDigit(b / 16), HexDigit(b % 16)]
  }

  function Triplets(bs: seq<Byte>): (r: string)
    ensures |r| == 3 * |bs|
  {
    if |bs| == 0 then "" else Triplet(bs[0]) + Triplets(bs[1..])
  }

  /** One character as `EscapeDataString` writes it: itself when unreserved,
      otherwise the triplets of its UTF-8 octets. */
  function EscapeChar(c: char): (r: string)
    ensures IsUnreserved(c) ==> r == [c]
    ensures !IsUnreserved(c) ==> |r| >= 3 && r[0] == '%'
  {
    if IsUnreserved(c) then [c] else Triplets(Utf8(c))
  }

  /** `Uri.EscapeDataString(s)` for a non-null `s`. */
  function EscapeDataString(s: string): (r: string)
    ensures |r| >= |s|
    ensures forall i :: 0 <= i < |r| ==> IsUnreserved(r[i]) || r[i] == '%'
  {
    if |s| == 0 then ""
    else
      var head := EscapeChar(s[0]);
      var tail := EscapeDataString(s[1..]);
      assert forall i :: 0 <= i < |head| ==> IsUnreserved(head[i]) || head[i] == '%' by {
        if !IsUnreserved(s[0]) {
          TripletsAlphabet(Utf8(s[0]));
        }
      }
      head + tail
  }

  lemma {:induction false} TripletsAlphabet(bs: seq<Byte>)
    ensures forall i :: 0 <= i < |Triplets(bs)| ==> IsUnreserved(Triplets(bs)[i]) || Triplets(bs)[i] == '%'
  {
    if |bs| > 0 {
      TripletsAlphabet(bs[1..]);
      var t := Triplets(bs);
      assert t == Triplet(bs[0]) + Triplets(bs[1..]);
      forall i | 0 <= i < |t|
        ensures IsUnreserved(t[i]) || t[i] == '%'
      {
        if i >= 3 {
          assert t[i] == Triplets(bs[1..])[i - 3];
        }
      }
    }
  }

  /** A string is left as it is exactly when every character is unreserved. */
  lemma {:induction false} EscapeIdentity(s: string)
    ensures EscapeDataString(s) == s <==> forall i :: 0 <= i < |s| ==> IsUnreserved(s[i])
  {
    if |s| > 0 {
      EscapeIdentity(s[1..]);
      if IsUnreserved(s[0]) {
        assert s == [s[0]] + s[1..];
        if EscapeDataString(s) == s {
          assert EscapeDataString(s[1..]) == s[1..];
        }
        if forall i :: 0 <= i < |s| ==> IsUnreserved(s[i]) {
          assert forall i :: 0 <= i < |s[1..]| ==> IsUnreserved(s[1..][i]) by {
            forall i | 0 <= i < |s[1..]| ensures IsUnreserved(s[1..][i]) {
              assert s[1..][i] == s[i + 1];
            }
          }
        }
      } else {
        assert |EscapeDataString(s)| > |s|;
      }
    }
  }

  /** The value of a hexadecimal digit of either case. */
  function HexValue(c: char): Option<int> {
    if '0' <= c <= '9' then Some(c as int - '0' as int)
    else if 'A' <= c <= 'F' then Some(c as int - 'A' as int + 10)
    else if 'a' <= c <= 'f' then Some(c as int - 'a' as int + 10)
    else None
  }

  /** The octets a percent-encoded string stands for; `None` when it holds a
      character outside the unreserved set or a malformed triplet. */
  function PercentDecode(t: string): (r: Option<seq<Byte>>)
    decreases |t|
  {
    if |t| == 0 then Some([])
    else if t[0] == '%' then
      if |t| < 3 then None
      else
        var hi :- HexValue(t[1]);
        var lo :- HexValue(t[2]);
        if 0 <= hi < 16 && 0 <= lo < 16 then
          var rest :- PercentDecode(t[3..]);
          Some([hi * 16 + lo] + rest)
        else None
    else if IsUnreserved(t[0]) then
      var rest :- PercentDecode(t[1..]);
      Some([t[0] as int] + rest)
    else None
  }

  /** The number of octets a UTF-8 sequence has when it starts with `b`, or 0
      when `b` cannot start one. */
  function SequenceLength(b: Byte): (n: nat)
    ensures n <= 4
  {
    if b < 0x80 then 1
    else if 0xC2 <= b < 0xE0 then 2
    else if 0xE0 <= b < 0xF0 then 3
    else if 0xF0 <= b < 0xF5 then 4
    else 0
  }

  predicate IsContinuation(b: Byte) {
    0x80 <= b < 0xC0
  }

  /** The scalar value one complete UTF-8 sequence encodes, rejecting
      over-long forms, surrogates and values past U+10FFFF. */
  function DecodeScalar(u: seq<Byte>): Option<char>
    requires 0 < |u| && |u| == SequenceLength(u[0])
  {
    if |u| == 1 then Some(u[0] as char)
    else if exists i :: 1 <= i < |u| && !IsContinuation(u[i]) then None
    else
      var n := ScalarBits(u);
      var least: int := if |u| == 2 then 0x80 else if |u| == 3 then 0x800 else 0x1_0000;
      if n < least || n >= 0x11_0000 || (0xD800 <= n < 0xE000) then None
      else Some(n as char)
  }

  /** The payload bits of a multi-octet sequence: five to three from the
      leading octet, six from each continuation octet. */
  function ScalarBits(u: seq<Byte>): int
    requires 2 <= |u| <= 4
  {
    var b: seq<int> := u;
    if |u| == 2 then (b[0] - 0xC0) * 0x40 + (b[1] - 0x80)
    else if |u| == 3 then ((b[0] - 0xE0) * 0x40 + (b[1] - 0x80)) * 0x40 + (b[2] - 0x80)
    else (((b[0] - 0xF0) * 0x40 + (b[1] - 0x80)) * 0x40 + (b[2] - 0x80)) * 0x40 + (b[3] - 0x80)
  }

  /** UTF-8 decoding of a whole octet sequence. */
  function Utf8Decode(bs: seq<Byte>): Option<string>
    decreases |bs|
  {
    if |bs| == 0 then Some("")
    else
      var len := SequenceLength(bs[0]);
      if len == 0 || |bs| < len then None
      else
        var c :- DecodeScalar(bs[..len]);
        var rest :- Utf8Decode(bs[len..]);
        Some([c] + rest)
  }

  /** `Uri.UnescapeDataString` restricted to what `EscapeDataString` can
      produce. */
  function Unescape(t: string): Option<string> {
    var bs :- PercentDecode(t);
    Utf8Decode(bs)
  }

  lemma Utf8Decodes(c: char)
    ensures SequenceLength(Utf8(c)[0]) == |Utf8(c)|
    ensures DecodeScalar(Utf8(c)) == Some(c)
  {
    var n := c as int;
    var u: seq<int> := Utf8(c);
    if n < 0x80 {
    } else if n < 0x800 {
      assert ScalarBits(Utf8(c)) == n;
    } else if n < 0x1_0000 {
      assert (n / 0x40) / 0x40 == n / 0x1000;
      assert ((u[0] - 0xE0) * 0x40 + (u[1] - 0x80)) == n / 0x40;
      assert ScalarBits(Utf8(c)) == n;
    } else {
      assert (n / 0x40) / 0x40 == n / 0x1000;
      assert (n / 0x1000) / 0x40 == n / 0x4_0000;
      assert (u[0] - 0xF0) * 0x40 + (u[1] - 0x80) == n / 0x1000;
      assert ((u[0] - 0xF0) * 0x40 + (u[1] - 0x80)) * 0x40 + (u[2] - 0x80) == n / 0x40;
      assert ScalarBits(Utf8(c)) == n;
    }
  }

  lemma {:induction false} Utf8RoundTrip(s: string)
    ensures Utf8Decode(Utf8Encode(s)) == Some(s)
  {
    if |s| > 0 {
      var u := Utf8(s[0]);
      var bs := Utf8Encode(s);
      Utf8Decodes(s[0]);
      assert bs == u + Utf8Encode(s[1..]);
      assert bs[0] == u[0];
      assert bs[..|u|] == u;
      assert bs[|u|..] == Utf8Encode(s[1..]);
      Utf8RoundTrip(s[1..]);
      assert s == [s[0]] + s[1..];
    }
  }

  /** Prepends `bs` to a decoded octet sequence, keeping a failure. */
  function PrependOctets(bs: seq<Byte>, r: Option<seq<Byte>>): Option<seq<Byte>> {
    match r
    case None => None
    case Some(v) => Some(bs + v)
  }

  lemma TripletDecodes(b: Byte, rest: string)
    ensures PercentDecode(Triplet(b) + rest) == PrependOctets([b], PercentDecode(rest))
  {
    var t := Triplet(b) + rest;
    assert t[0] == '%' && t[1] == HexDigit(b / 16) && t[2] == HexDigit(b % 16);
    assert HexValue(t[1]) == Some(b / 16);
    assert HexValue(t[2]) == Some(b % 16);
    assert t[3..] == rest;
  }

  lemma PrependTwice(a: seq<Byte>, b: seq<Byte>, r: Option<seq<Byte>>)
    ensures PrependOctets(a, PrependOctets(b, r)) == PrependOctets(a + b, r)
  {
    if r.Some? {
      assert a + (b + r.value) == (a + b) + r.value;
    }
  }

  lemma {:induction false} TripletsDecode(bs: seq<Byte>, rest: string)
    ensures PercentDecode(Triplets(bs) + rest) == PrependOctets(bs, PercentDecode(rest))
  {
    if |bs| == 0 {
      assert Triplets(bs) + rest == rest;
      var d := PercentDecode(rest);
      if d.Some? {
        assert bs + d.value == d.value;
      }
    } else {
      var x := Triplets(bs[1..]) + rest;
      assert Triplets(bs) + rest == Triplet(bs[0]) + x;
      calc {
        PercentDecode(Triplets(bs) + rest);
        PercentDecode(Triplet(bs[0]) + x);
        { TripletDecodes(bs[0], x); }
        PrependOctets([bs[0]], PercentDecode(x));
        { TripletsDecode(bs[1..], rest); }
        PrependOctets([bs[0]], PrependOctets(bs[1..], PercentDecode(rest)));
        { PrependTwice([bs[0]], bs[1..], PercentDecode(rest)); assert [bs[0]] + bs[1..] == bs; }
        PrependOctets(bs, PercentDecode(rest));
      }
    }
  }

  /** Percent-decoding an escaped string gives back the UTF-8 octets of the
      original. */
  lemma {:induction false} PercentRoundTrip(s: string)
    ensures PercentDecode(EscapeDataString(s)) == Some(Utf8Encode(s))
  {
    if |s| > 0 {
      var c := s[0];
      var tail := EscapeDataString(s[1..]);
      PercentRoundTrip(s[1..]);
      if IsUnreserved(c) {
        var t := [c] + tail;
        assert t[1..] == tail;
      } else {
        TripletsDecode(Utf8(c), tail);
      }
    }
  }

  /** Escaping loses nothing: unescaping the result restores the string. */
  lemma EscapeRoundTrip(s: string)
    ensures Unescape(EscapeDataString(s)) == Some(s)
  {
    PercentRoundTrip(s);
    Utf8RoundTrip(s);
  }

  /** Different strings escape differently. */
  lemma EscapeInjective(a: string, b: string)
    requires EscapeDataString(a) == EscapeDataString(b)
    ensures a == b
  {
    EscapeRoundTrip(a);
    EscapeRoundTrip(b);
  }
}
